=== FILE: README.md ===
# shake, modelled in Dafny

shake is a user-space defragmenter. It does not move blocks itself. It
judges each file from the way the filesystem laid it out. A file is guilty
when it is split into too many fragments or crumbs (tiny fragments), when
it starts far from where its neighbours in the listing say it should, or
when it has not been rewritten for a long time. A guilty file is rewritten
in full: copied to a temporary file, truncated, then copied back, so the
filesystem allocates it afresh. While the file is empty and the temporary
file holds the only copy, the program is in a critical signal mode. In that
mode, signals that would lose the copy are blocked.

This project models the core of that program as pure functions and small
methods, and proves what the code promises:

- `Testimony`: the extent walk of `get_testimony`. It is a fold over the
  FIBMAP answers, related to reference definitions of fragment breaks, of
  crumbs and of the first and last allocated block.
- `Ptime`: the 4-byte big-endian placement time kept in the `shake.ptime`
  extended attribute.
- `Judgment`: the tolerance, the guilt verdict, the ideal offset and the
  dispatch of `judge` and `judge_dir`.
- `Investigation`: `investigate`, with every system call as an input.
- `Window`: the three-entry window of `judge_list`. It is a loop method
  proved against a reference walk over the successfully investigated entries.
- `Files` and `Copy`: `fcopy` over a file of bytes with holes. Failing
  system calls are given as a set of call numbers.
- `Signals`: the two signal modes and the handler's decision.
- `Shake`: `shake_reg`, `capture` and `release`.
- `Options`: `strtol`, `argtoi` and `parseopts`.
- `Operands`: the operand loop of `main`.
- `CTypes` and `Records`: C conversions and the shared records
  (`struct law` and `struct accused`).

The source text describes one revision of the program. A later design
adds a lease guard, FIEMAP and four signal modes. The model follows the code
as it stands, with FIBMAP only and two signal modes.

## Model

| member | source | states |
|---|---|---|
| Testimony.FragmentsAreBreaks | linux.c:128-160 | the walk counts a fragment, and logs its position, exactly at every allocated block more than MAGICLEAP from the block before it (a hole counts as position 0); the size log holds one entry fewer than the position log |
| Testimony.CrumbsAtMostFragments | linux.c:156-158 | a crumb is counted only where a fragment opens, so crumbs never outnumber fragments; a zero crumb size makes no crumb; for a positive block size the count is exactly that of `Crumbs` |
| Testimony.CrumbsAreSmallClosings | linux.c:107-162 | a crumb is counted exactly at each block that opens a fragment when the stretch it closes (every block since the previous opening, holes included, as a `uint` byte count) is nonzero and below the threshold read as a `uint` |
| Testimony.LeadingHolesMakeACrumb | linux.c:107-162 | a file whose first allocated block follows `k` holes has one fragment, and the holes count as a crumb when their size is below the threshold |
| Testimony.CrumbThreshold | linux.c:87 | the threshold the walk compares with is the truncated product of size and ratio while it fits an `int`, and never more than 2^31 bytes once the product overflows |
| Testimony.TenGigabytesAtHalf | linux.c:87 | a 10 GB file with a ratio of 0.5 gets a threshold of 2^31 bytes, not 5e9 |
| Testimony.FragmentSizeSinceBreak | linux.c:106-163 | the running fragment size is the block size times the number of blocks since the last break, holes included, reduced modulo 2^32 as a `uint` |
| Testimony.ScanRemembersLastBlock | linux.c:113-126 | the previous position the walk compares with is the last block's position, 0 for a hole |
| Testimony.StartIsFirstData | linux.c:130-131 | `start` is the position of the first allocated block, and is 0 exactly when every block is a hole |
| Testimony.StartAndEndAreData | linux.c:113-131 | the walk's `start` and `end` equal reference functions for the first and last nonzero position, each the only value meeting its characterisation (`FirstData`, `LastData`) |
| Testimony.EndIsLastData | linux.c:132 | `end` is the position of the last allocated block, and is 0 exactly when every block is a hole |
| Testimony.Blocks | linux.c:86 | the rounded-up quotient covers the size and is the least block count that does |
| Testimony.Summarize | linux.c:164-173 | the report counts one fragment per break and, for a positive block size, the crumbs of `Crumbs`; `start` and `end` are the first and last allocated positions, `FirstDataOf` and `LastDataOf` (both 0 when every block is a hole); a fragment log is kept only when logging, and each log list ends with -1 and holds one entry per fragment, the position list being exactly the breaks in order followed by -1 |
| Testimony.GetTestimony | linux.c:69-176 | a failed FIGETBSZ, or a failed FIBMAP on any of the first blocks (at most INT_MAX of them), gives -1 and nothing else does; a report covers the size in the least number of blocks, counts one fragment per break and the crumbs of `Crumbs` over the positions FIBMAP gave, under the threshold `CrumbSize`, gives as `start` and `end` the first and last allocated position among them, and has a log only at verbosity 3 or more, whose position list is the breaks followed by -1 |
| Ptime.SetPtime | linux.c:37-44 | the stored value is 4 bytes long and decodes to the time reduced to 32 bits |
| Ptime.GetPtime | linux.c:48-61 | a missing or over-long attribute, or a stored date after now, reads as -1; any other value reads as the stored date, which is never after now |
| Ptime.EncodeDecode | linux.c:41-57 | `htonl` and `ntohl` are inverse: encoding a decoded 4-byte value gives back the same bytes |
| Ptime.PtimeRoundTrip | linux.c:37-61 | a placement time written before 2106, and not after now, reads back unchanged |
| Ptime.PtimeWrapsAfter2106 | linux.c:32-41 | from 2106 the 32-bit date wraps and reads back 2^32 seconds early |
| Judgment.Tolerance | judge.c:170-181 | the small-file tolerance when a small size is set and the file is below it; otherwise the big-file tolerance when a big size is set and the file is above it; otherwise 1 |
| Judgment.TiersDisjoint | judge.c:176-179 | when the small size does not exceed the big size, no file is in both tiers |
| Judgment.JudgeReg | judge.c:185-205 | guilty if and only if the file is not exempt (disabling tolerance, or younger than `new`) and is too old, too fragmented, too crumbly or too far from its ideal start; the `(int)` cast and `abs` of the deviance are included |
| Judgment.GuiltIsMonotone | judge.c:193-200 | more fragments, more crumbs or more age never acquit a guilty file |
| Judgment.OldFilesAreGuilty | judge.c:193-196 | under an ordered law with a non-negative tolerance, every file older than `old` times the tolerance is guilty |
| Judgment.Ideal | judge.c:246-268 | with no start, or no usable neighbour, the ideal is 0; a left neighbour alone puts the file MAGICLEAP after its end; a right neighbour alone puts it MAGICLEAP before its start; with both, the room before the file exceeds the room after it by MAGICLEAP, give or take one; twice the ideal is the sum `end + start + MAGICLEAP - size` rounded toward zero (one less than an odd positive sum, one more than an odd negative one) |
| Judgment.IdealBetweenNeighbours | judge.c:259 | a worked case of the two-neighbour formula: ends at 1000, starts at 3000, 500 bytes long gives 34518 |
| Judgment.IdealTruncatesTowardZero | judge.c:259 | the two-neighbour division truncates toward zero: a sum of -3 gives -1, not the floor -2 |
| Judgment.JudgeDir | judge.c:284-305 | a directory off the walk's filesystem, unless crossing is allowed, is passed with 0; any other directory is listed and its listing judged |
| Judgment.Judge | judge.c:324-371 | symlinks pass; directories go to `judge_dir`; a non-empty regular file is judged only when the lock is obtained (or locks are off) and `fstat` confirms size, mtime and mode, and otherwise passes with 0; -1 comes only from a directory whose listing failed |
| Investigation.Investigate | judge.c:39-139 | a failed `lstat` skips the name; non-regular or empty entries come back from `lstat` alone; a regular file survives exactly when open, lock, `fstat`, the inode and device re-check and the extent walk all succeed, and then carries `fstat`'s size and times, the block count, fragment and crumb counts and first and last position of the report `get_testimony` gives for that size, and an age measured from the placement time when one is usable, else from the status change |
| Investigation.RecheckOfUntouchedFile | judge.c:98-116 | if nothing changes in between, `judge`'s re-check of an investigated file passes exactly when the mode `lstat` saw matches `fstat`'s |
| Window.JudgeList | judge.c:209-280 | the loop judges exactly the entries of the reference walk: each successfully investigated entry in listing order, placed between its nearest successful neighbours, stopping after the first -1; it returns -1 exactly when it stopped, else 0 |
| Window.Step | judge.c:225-275 | one turn slides the window past one name and judges y once its successor is known, keeping the walk in step with the reference |
| Window.PlacedInWindow | judge.c:228-242 | the window's x, y and z are the nearest successful neighbours of the entry being judged |
| Window.TrialIsInOrder | judge.c:270-274 | the judged entries are a prefix of the placed entries, and every entry but possibly the last was judged without -1 |
| Window.TrialStable | judge.c:270-274 | after a -1 nothing more is judged |
| Window.TrialJudgesAll | judge.c:225-275 | when `judge` never fails, every entry is judged exactly once, in order |
| Window.JudgeListJudgesAll | judge.c:209-280 | when `judge` never fails, `judge_list` judges every successfully investigated entry of the listing, each with its ideal offset |
| Files.WriteAt | executive.c:131-152 | a write past the end after an `lseek` leaves a hole of zeros between the old end and the write |
| Copy.Flush | executive.c:128-147 | with at least `gap` held-back buffers and a non-empty buffer after them nothing is written (the `lseek` only moves the offset); otherwise they are written out as zeros |
| Copy.Emit | executive.c:128-152 | a buffer that cannot wait goes out after the flush, so the output grows by the held zeros and then by the buffer itself; the held zeros become a hole exactly when there are at least `gap` of them and the buffer is not empty |
| Copy.Pass | executive.c:128-152 | the written half of a corrected turn leaves the output equal to the source through the buffer, and makes a hole for the held zeros exactly when there are at least `gap` of them and the buffer is not empty |
| Copy.Turn | executive.c:104-154 | one corrected turn keeps the output equal to the source up to the bytes held back, which are zeros; the held count follows the run of zero buffers just read; at most one hole is made, for the held buffers, and it is made whenever there are at least `gap` of them and the read does not return a zero buffer to hold |
| Copy.TrailingOfRun | executive.c:104-127 | at the end of a run of zero buffers that starts the file or follows data, the count of zero buffers just read is the run's length |
| Copy.FCopy | executive.c:36-172 | the corrected copy returns 1 only with an output equal to the source; it returns 1 whenever no call fails; a failure leaves a prefix of the source or the untouched output; with no gap no hole is made; after a success every hole lies in an aligned run of at least `gap` bytes of zero buffers with more of the file after it, and every whole such run (after data, before a read that is not a full zero buffer, short enough for the count) is a hole |
| Copy.CheckedCopy | executive.c:60-110 | for a block size that breaks `fcopy`'s sizing, the program crashes (on a division by zero or on the assertion) unless a call fails first; otherwise the copy behaves as above |
| Copy.TurnAsWritten | executive.c:104-154 | as written, a zero buffer that would overflow the held-back count is counted, flushed with the others, then written once more |
| Copy.FCopyAsWritten | executive.c:44-172 | as written, a copy that succeeds is exact, but a source with a zero run long enough to overflow the count makes the copy return -1 even when no call fails |
| Copy.ZerosAreALongRun | executive.c:124-127 | a source of zeros with one buffer more than INT_MAX bytes is such a long run |
| Copy.TwoGibOfZeros | executive.c:124-168 | copying 2 GiB of zeros with 4 KiB blocks and no failing call returns -1 as written and 1 once corrected |
| Signals.Install | signals.c:56-81 | the temporary file is recorded and the handler is requested for the fourteen signals named (the request for KILL has no effect, and delivery gives KILL its default first) |
| Signals.Restrict | signals.c:90-106 | with a message, the critical mode is entered and every signal except ILL, FPE, SEGV, TSTP and STOP is blocked; without one, the assertion fails |
| Signals.Restore | signals.c:111-119 | back to the normal mode, with no message and nothing blocked |
| Signals.RestoreUndoesRestrict | signals.c:90-119 | a critical section leaves the state exactly as restoring it would have without the section |
| Signals.Deliver | signals.c:36-51 | KILL and STOP take their default action; a blocked signal waits; an unhandled one takes its default; a handled one resets its handler, and then exits with the message in the critical mode or removes the temporary file in the normal mode (or fails the handler's assertion if the string is missing) |
| Signals.RunIsCoherent | signals.c:28-119 | every sequence of mode switches that passes its assertions keeps the mode and the message together, the critical mask in place, the normal mode unblocked and the handler installed exactly with the temporary file |
| Signals.HandlerIsSafe | signals.c:36-106 | once installed, the handler never fails an assertion, never removes the temporary file in the critical mode, and in that mode runs only for ILL, FPE and SEGV |
| Signals.InstalledRunsAreSafe | signals.c:56-119 | after the install, no run of mode switches that always gives a message fails an assertion, nor does the handler |
| Shake.Capture | executive.c:177-188 | the placement time is set to now unless attributes are off or the write fails, and nothing else changes |
| Shake.Release | executive.c:192-207 | the access and modification times are put back to those the investigation recorded, and nothing else changes |
| Shake.CaptureIsReadBack | executive.c:177-188 | a file just shaken, before 2106, reads back as placed now |
| Shake.Rewrite | executive.c:238-255 | the critical section: on return the file holds the backup's bytes, its times are restored and the signals are normal; on any other outcome the critical mode still holds the message naming the backup |
| Shake.ShakeReg | executive.c:213-256 | with `pretend` nothing is touched; a return leaves the contents as they were; the contents are lost only while the backup holds them, in the critical mode, with the message naming it; a failed backup removes the temporary file; a missing message crashes before the file is touched; without failures the file is rewritten |
| Options.Strtol | main.c:92 | a number read by `strtol` lies within the 64-bit `long` range |
| Options.StrtolReadsDecimal | main.c:92 | `strtol` reads back any `long` written in decimal, whatever non-digit text follows |
| Options.NoDigitNoNumber | main.c:92-93 | text starting with neither white space, a sign nor a digit is not a number, so `endptr` stays at the start |
| Options.ArgToIAsWritten | main.c:86-96 | as written, the result is converted to `uint` before the comparison, so it is rejected only when it is not a number or its 32-bit value is below that of `min` |
| Options.ArgToI | main.c:82-96 | corrected, a number below `min` is rejected, and an accepted one is returned reduced to 32 bits |
| Options.AsWrittenZeroRejectsOnlyNonNumbers | main.c:86-96 | with the bound 0 used at every call site, the program as written rejects only text that is not a number |
| Options.MinusOneSlipsThrough | main.c:86-96 | "-1" is accepted as 4294967295 as written, and rejected once corrected |
| Options.ArgToIAgreesInRange | main.c:86-96 | both versions agree on every number and bound within the `uint` range |
| Options.ArgToF | main.c:101-111 | a floating argument is kept when it is a number not below `min`, else the program exits |
| Options.WithNewAge | main.c:192-196 | `-n` sets the new age and raises the old age to it if needed, keeping the law ordered |
| Options.WithOldAge | main.c:197-201 | `-o` sets the old age and lowers the new age to it if needed, keeping the law ordered |
| Options.WithSmallSize | main.c:208-212 | `-s` sets the small size and raises the big size to it if needed, keeping the law ordered |
| Options.WithBigSize | main.c:213-217 | `-S` sets the big size and lowers the small size to it if needed, keeping the law ordered |
| Options.ApplyNumber | main.c:174-217 | each integer option scales its accepted value (days or kB) into the law and keeps the law ordered |
| Options.Apply | main.c:172-237 | help and version exit with 0; an unknown option or a rejected argument exits with 1; any other option keeps an ordered law ordered |
| Options.ParsedLawIsOrdered | main.c:118-240 | whatever the options, a law that comes out of parsing has new age ≤ old age and small size ≤ big size |
| Options.DefaultsAreOrdered | main.c:125-141 | the default law is ordered, with old at 248 days and new at 31 days |
| Options.ExitIsFinal | main.c:143-237 | once an option exits, later options change nothing |
| Operands.NextKingdom | main.c:296-297 | without `-m`, the walk is confined to the filesystem of the operand just investigated |
| Operands.WalkJudgesEachOperand | main.c:288-300 | each operand that was investigated successfully is judged once, in order, under its own filesystem or the one that allows crossing; with `-m` the walk stays unconfined |
| Operands.OperandIsNeverForeign | main.c:288-300 | a directory given as an operand is always walked, never passed over as foreign |
| Operands.Main | main.c:261-304 | an exit during parsing ends the program; with no operand the names come from standard input; otherwise each operand investigated successfully is judged, once and in order, under its own filesystem or the kingdom that allows crossing, and always the latter when `-m` was given |
| Operands.KingdomStaysZero | main.c:125-191 | without `-m`, the kingdom keeps its default, 0 |
| Operands.StdinSkipsOtherDevices | judge.c:284-291 | names read from standard input are judged under kingdom 0, so without `-m` a directory on any other device is passed over |

## Left out

- System calls (`lstat`, `open`, `fstat`, the ioctls, `read`, `write`, `lseek`, `ftruncate`, `futimes`, the xattr calls and the clock) are inputs of the model, not performed.
- `list_dir`, `list_stdin`, the access-time sort and `close_list` are outside the core: a listing arrives as the outcomes of `investigate` on its names, and the result of walking a directory arrives as an input of `judge_dir`.
- `readlock_file` and `unlock_file` are given as whether the lock was obtained.
- `getopt_long` is not modelled: options arrive decoded. The `-L` short option is declared with an argument in the option string, although its long form takes none. `-W` is declared but falls to the invalid-option case. Both are parsing details of `getopt_long`.
- `argtof` is modelled on the value `strtof` returns. Floating-point values (tolerances, crumb ratio) are exact reals, so the rounding of `float` and `double` is not modelled.
- Options.ApplyNumber: the products `day * argtoi(…)` and `kB * argtoi(…)` are computed in 64 bits and cannot overflow for a 32-bit argument, so they are plain integers here.
- Options.Apply: the verbosity counter is unbounded; the program's `int` would overflow after 2^31 `-v` options.
- Options.ArgToI: it keeps the program's reduction of an accepted value to 32 bits for numbers beyond the `uint` range.
- Testimony.GetTestimony: it requires a positive FIGETBSZ answer. The program divides by that answer (linux.c:86): a zero answer would crash it and a negative one would give meaningless counts. No filesystem gives either.
- Investigation.Investigate: for the same reason its probe must answer FIGETBSZ with a positive block size.
- Testimony.CrumbSize: the conversion of an out-of-range product to `int` is undefined in C. The model takes the x86-64 result, INT_MIN, which the walk compares as 2^31.
- Shake.ShakeReg: it composes the corrected `fcopy` (Copy.FCopy) for both copies. As written, a file with a zero run long enough to overflow the held-back count (about 2 GiB, see Findings) makes the backup copy return -1, and the program exits with "temporary copy failed" where the model returns 0.
- Shake.Rewrite: it composes the corrected `fcopy` for the copy back, so the as-written failure on such a run, which would end in "restore failed", is not modelled there.
- Options.Apply: it composes the corrected `argtoi` (Options.ArgToI). As written, a negative integer argument such as `-c -1` is accepted as 4294967295 and parsing goes on, where the model exits with 1.
- Operands.Main: it parses through Options.Apply, so it inherits the same difference for negative integer arguments.
- Ptime.GetPtime: an attribute value shorter than 4 bytes leaves part of the date uninitialised in the program; the model requires at least 4 bytes.
- Real signal delivery, the signal mask of the kernel and the `raise` after unlinking are replaced by a decision over the program's own state.
- Copy.FCopy: it requires the sizing the program asserts. The crash when that sizing fails is modelled separately by Copy.CheckedCopy.
- The failure of `mkstemp` in `main` (a temporary file descriptor of -1, caught by the assertion of `fcopy`) is not modelled.
- `os_specific_setup`, `show_header`, `show_reg`, the help and version texts (msg.c), `unattr.c` and the Python documentation tool are not part of this model.
- Memory allocation (`malloc`, `realloc`, `alloca`, `strdup`) is assumed to succeed. Its failures end the program with a message.
- The fragment log's buffer growth (`realloc` every 32 entries) is not modelled; the log is a sequence.
- `close_case` only frees memory and closes descriptors; it has no counterpart.

## Findings

| source | as written | input that shows it | evidently intended | confidence | as-written member | corrected member |
|---|---|---|---|---|---|---|
| executive.c:124-152 | in sparse mode the zero buffer just read is counted in `empty_buffs` before the overflow test; when the test forces a flush, the flush covers that buffer and the same buffer is then written again | a source holding 2 GiB (0x80000000 bytes) of zeros, block size 4096, gap 65536, no failing call: the output comes out one block longer than the source, the size check at executive.c:165-168 fails and `fcopy` returns -1, so `shake_reg` stops with "temporary copy failed" | flush the buffers held back so far and write the current buffer once, so the copy is exact and returns 1 | not executed; high | Copy.FCopyAsWritten, Copy.TwoGibOfZeros | Copy.FCopy, Copy.TwoGibOfZeros |
| main.c:86-96 | `argtoi` converts the `strtol` result to `uint` before comparing it with `min`, so with `min == 0` no number is ever below it | `--old -1` (or `-n -1`, `-c -1`) is accepted as 4294967295 instead of being refused with "old must be >= 0" | reject a number below `min`, as the comment above the function says | not executed; high | Options.ArgToIAsWritten, Options.MinusOneSlipsThrough | Options.ArgToI, Options.MinusOneSlipsThrough |

=== FILE: copy.dfy ===
/** `fcopy` (executive.c): copies one file over another, buffer by buffer,
    making holes for long runs of zero buffers when a gap is given.

    Every system call the loop makes (lseek, ftruncate, the FIGETBSZ ioctl,
    read, write, fstat) is numbered in the order it is made, from 0; the
    calls whose numbers are in `faults` fail. Reads return as much as the
    buffer holds or the rest of the file, and a failed or short write is
    a fault. */
module Copy {
  import opened CTypes
  import opened Files

  /** The buffer size used unless the gap spans a physical block. */
  const DEFAULT_BUFFSIZE: nat := 65535

  /** What the assertions of `fcopy` demand: in sparse mode (a non-zero
      gap) the gap spans at least one physical block and a block holds a
      whole number of `int`s. */
  predicate Sizing(gap: nat, physbsize: int) {
    gap != 0 ==> 0 < physbsize <= gap && physbsize <= INT_MAX && physbsize % 4 == 0
  }

  /** The size of the buffers the loop reads and writes. */
  function BufferSize(gap: nat, physbsize: int): (bs: nat)
    requires Sizing(gap, physbsize)
    ensures 0 < bs <= INT_MAX
  {
    if gap != 0 then physbsize else DEFAULT_BUFFSIZE
  }

  /** The gap as a count of buffers: how many consecutive zero buffers
      become a hole. */
  function GapBuffers(gap: nat, physbsize: int): (g: nat)
    requires Sizing(gap, physbsize)
    ensures gap != 0 ==> g >= 1
  {
    if gap != 0 then gap / physbsize else gap
  }

  /** The buffer a read at `pos` fills: a full buffer, or the rest of the
      file (shorter, possibly empty) at the end. */
  function Chunk(src: seq<byte>, pos: nat, bs: nat): (c: seq<byte>)
    requires pos <= |src|
    ensures |c| == Min(bs, |src| - pos)
  {
    src[pos..pos + Min(bs, |src| - pos)]
  }

  /** None of the `n` calls numbered from `from` fails. */
  predicate NoFault(faults: set<nat>, from: nat, n: nat) {
    forall k :: from <= k < from + n ==> k !in faults
  }

  /** The number of whole zero buffers immediately before offset `p`,
      counting back in steps of `bs`. */
  function Trailing(src: seq<byte>, bs: nat, p: nat): nat
    requires bs > 0 && p <= |src|
    decreases p
  {
    if p < bs then 0
    else if AllZero(src[p - bs..p]) then Trailing(src, bs, p - bs) + 1
    else 0
  }

  /** Somewhere at a buffer boundary `src` holds a run of zero buffers so
      long that one more buffer would take the byte count of the run past
      INT_MAX (about 2 GiB of zeros). */
  predicate LongZeroRun(src: seq<byte>, bs: nat)
    requires bs > 0
  {
    !RunsShortUpTo(src, bs, |src|)
  }

  /** No run of zero buffers ending at a buffer boundary up to `q` is long
      enough to overflow the count. */
  predicate RunsShortUpTo(src: seq<byte>, bs: nat, q: nat)
    requires bs > 0 && q <= |src|
  {
    forall p :: 0 < p <= q && p % bs == 0 ==> (Trailing(src, bs, p) + 1) * bs <= INT_MAX
  }

  /** The held-back zero buffers are written as `n` writes of a zeroed
      buffer (the loop at the end of the flush). */
  method WriteEmpties(dst: File, n: nat, bs: nat, faults: set<nat>, calls: nat)
    returns (ok: bool, out: File, calls': nat)
    requires bs > 0
    ensures ok <==> NoFault(faults, calls, n)
    ensures out.holes == dst.holes
    ensures dst.bytes <= out.bytes && AllZero(out.bytes[|dst.bytes|..])
    ensures |out.bytes| <= |dst.bytes| + n * bs
    ensures ok ==> |out.bytes| == |dst.bytes| + n * bs && calls' == calls + n
    ensures Valid(dst) ==> Valid(out)
  {
    out := dst;
    calls' := calls;
    var done := 0;
    while done < n
      invariant 0 <= done <= n
      invariant calls' == calls + done
      invariant NoFault(faults, calls, done)
      invariant out.holes == dst.holes
      invariant dst.bytes <= out.bytes && AllZero(out.bytes[|dst.bytes|..])
      invariant |out.bytes| == |dst.bytes| + done * bs
      invariant Valid(dst) ==> Valid(out)
    {
      if calls' in faults {
        MulMonoIn(done, n, bs);
        ok := false;
        return;
      }
      out := File(out.bytes + Zeros(bs), out.holes);
      calls' := calls' + 1;
      done := done + 1;
    }
    ok := true;
  }

  lemma MulMonoIn(a: nat, b: nat, c: nat)
    requires a <= b
    ensures a * c <= b * c
  {
  }

  /** The flush of the held-back zero buffers before a buffer that cannot
      wait: a hole (an `lseek` past them) when there are at least `g` of
      them and data follows, otherwise `n` zero buffers written out. `at`
      is where the next write lands. */
  method Flush(dst: File, n: nat, g: nat, bs: nat, len: nat, faults: set<nat>, calls: nat)
    returns (ok: bool, out: File, at: nat, calls': nat)
    requires bs > 0
    ensures out.holes == dst.holes
    ensures dst.bytes <= out.bytes && AllZero(out.bytes[|dst.bytes|..])
    ensures |out.bytes| <= |dst.bytes| + n * bs
    ensures ok ==> at == |dst.bytes| + n * bs && |out.bytes| <= at
    ensures ok && len == 0 ==> at == |out.bytes|
    ensures ok && (n < g || len == 0) ==> at == |out.bytes|
    ensures Valid(dst) ==> Valid(out)
    ensures faults == {} ==> ok
    ensures ok && n >= g && len != 0 ==> out == dst
  {
    if n >= g && len != 0 {
      // lseek(out_fd, n * bs, SEEK_CUR)
      out := dst;
      if calls in faults {
        ok, at, calls' := false, 0, calls;
        return;
      }
      ok, at, calls' := true, |dst.bytes| + n * bs, calls + 1;
    } else {
      ok, out, calls' := WriteEmpties(dst, n, bs, faults, calls);
      at := |out.bytes|;
    }
  }

  /** What the copy loop keeps between two reads: the output holds the
      source up to the `held` bytes of zero buffers held back, and its holes
      read as zeros. */
  predicate Copied(src: seq<byte>, dst: File, inPos: nat, held: nat) {
    && inPos <= |src|
    && |dst.bytes| + held == inPos
    && dst.bytes <= src && AllZero(src[|dst.bytes|..inPos])
    && Valid(dst)
  }

  /** A buffer that cannot wait goes out: in sparse mode after the flush of
      the `held` zero buffers held back, then the buffer itself. */
  method Emit(dst: File, held: nat, g: nat, bs: nat, chunk: seq<byte>, sparse: bool,
              faults: set<nat>, calls: nat)
    returns (ok: bool, dst': File, calls': nat)
    requires bs > 0 && Valid(dst)
    requires !sparse ==> held == 0 && dst.holes == {}
    ensures Valid(dst')
    ensures !sparse ==> dst'.holes == {}
    ensures faults == {} ==> ok
    ensures dst.bytes <= dst'.bytes
    ensures !ok ==> |dst'.bytes| <= |dst.bytes| + held * bs && AllZero(dst'.bytes[|dst.bytes|..])
    ensures ok ==> |dst'.bytes| == |dst.bytes| + held * bs + |chunk|
    ensures ok ==> AllZero(dst'.bytes[|dst.bytes|..|dst.bytes| + held * bs])
    ensures ok ==> dst'.bytes[|dst.bytes| + held * bs..] == chunk
    // the held-back buffers become a hole when there are at least `g` of
    // them and the buffer is not empty; no other hole is made
    ensures ok && sparse && held >= g && |chunk| > 0 ==>
      dst'.holes == dst.holes + Range(|dst.bytes|, |dst.bytes| + held * bs)
    ensures !ok || !sparse || held < g || |chunk| == 0 ==> dst'.holes == dst.holes
  {
    var at := |dst.bytes|;
    ok, dst', calls' := true, dst, calls;
    if sparse {
      ok, dst', at, calls' := Flush(dst, held, g, bs, |chunk|, faults, calls);
      if !ok {
        return;
      }
    }
    // write(out_fd, buffer, len)
    if calls' in faults {
      ok := false;
      return;
    }
    calls' := calls' + 1;
    var flushed := dst';
    dst' := WriteAt(dst', at, chunk);
    if |chunk| > 0 {
      ZeroJoinSeq(dst'.bytes, |dst.bytes|, |flushed.bytes|, at);
    }
  }

  /** Two adjacent zero stretches of a sequence form one (`b` may lie
      anywhere between `a` and `c`). */
  lemma ZeroJoinSeq(s: seq<byte>, a: nat, b: nat, c: nat)
    requires a <= b <= c <= |s|
    requires AllZero(s[a..b]) && AllZero(s[b..c])
    ensures AllZero(s[a..c])
  {
    forall j | 0 <= j < c - a
      ensures s[a..c][j] == 0
    {
      if a + j < b {
        assert s[a..b][j] == 0;
      } else {
        assert s[b..c][a + j - b] == 0;
      }
    }
  }

  /** The output of a turn that emitted its buffer is the source up to the
      end of that buffer. */
  lemma Emitted(src: seq<byte>, d0: File, d1: File, inPos: nat, h: nat, len: nat)
    requires Copied(src, d0, inPos, h) && inPos + len <= |src|
    requires d0.bytes <= d1.bytes && |d1.bytes| == |d0.bytes| + h + len
    requires AllZero(d1.bytes[|d0.bytes|..|d0.bytes| + h])
    requires d1.bytes[|d0.bytes| + h..] == src[inPos..inPos + len]
    requires Valid(d1)
    ensures Copied(src, d1, inPos + len, 0)
  {
    forall i | 0 <= i < inPos + len
      ensures d1.bytes[i] == src[i]
    {
      if i < |d0.bytes| {
        assert d1.bytes[i] == d0.bytes[i];
      } else if i < inPos {
        assert d1.bytes[|d0.bytes|..|d0.bytes| + h][i - |d0.bytes|] == 0;
        assert src[|d0.bytes|..inPos][i - |d0.bytes|] == 0;
      } else {
        assert d1.bytes[|d0.bytes| + h..][i - inPos] == src[inPos..inPos + len][i - inPos];
      }
    }
    assert d1.bytes == src[..inPos + len];
  }

  /** One turn of the loop of `fcopy` with the overflow flush corrected:
      read a buffer, hold it back if it is a zero buffer that can wait,
      otherwise flush the held-back ones and write it. */
  method Turn(src: seq<byte>, dst: File, inPos: nat, empties: nat, bs: nat, g: nat,
              sparse: bool, faults: set<nat>, calls: nat)
    returns (ok: bool, dst': File, inPos': nat, empties': nat, calls': nat, eof: bool)
    requires bs > 0 && Copied(src, dst, inPos, empties * bs)
    requires !sparse ==> empties == 0 && dst.holes == {}
    requires sparse ==> inPos % bs == 0 && Tracks(src, bs, inPos, empties)
    ensures ok ==> Copied(src, dst', inPos', empties' * bs)
    ensures ok && !sparse ==> empties' == 0 && dst'.holes == {}
    ensures ok && !eof ==> inPos < inPos'
    ensures ok && eof ==> inPos' == |src| && empties' == 0
    ensures ok ==> inPos' <= inPos + bs
    ensures ok && sparse && !eof ==> inPos' % bs == 0 && Tracks(src, bs, inPos', empties')
    ensures !ok ==> dst'.bytes <= src && Valid(dst')
    ensures !ok && !sparse ==> dst'.holes == {}
    ensures faults == {} ==> ok
    // a turn makes at most one hole, for the buffers held back before it,
    // and makes it whenever there are at least `g` of them and the buffer
    // read is not a zero buffer to hold back
    ensures ok ==> dst.holes <= dst'.holes
    ensures ok && dst'.holes != dst.holes ==>
      sparse && g <= empties && inPos < |src| && dst'.holes == dst.holes + Range(|dst.bytes|, inPos)
    ensures ok && sparse && g <= empties && inPos < |src| && !ZeroBufferAt(src, bs, inPos) ==>
      dst'.holes == dst.holes + Range(|dst.bytes|, inPos)
  {
    dst', inPos', empties', calls', eof := dst, inPos, empties, calls, false;
    // read(in_fd)
    if calls in faults {
      ok := false;
      return;
    }
    calls' := calls + 1;
    var chunk := Chunk(src, inPos, bs);
    var len := |chunk|;
    eof := len != bs;
    inPos' := inPos + len;
    var isEmpty := sparse && !eof && AllZero(chunk);
    if sparse && !eof {
      TracksStep(src, bs, inPos, empties);
    }
    if isEmpty && (empties + 2) * bs <= INT_MAX {
      // the zero buffer is held back
      HoldBack(src, dst, inPos, empties, bs);
      ok, empties' := true, empties + 1;
      return;
    }
    ok, dst', calls' := Pass(src, dst, inPos, empties, bs, g, sparse, faults, calls');
    empties' := 0;
    assert empties' * bs == 0;
  }

  /** The writing half of a corrected turn: the buffer read at `inPos`
      goes out after the held-back ones, which become a hole when there
      are at least `g` of them and the buffer is not empty. */
  method Pass(src: seq<byte>, dst: File, inPos: nat, empties: nat, bs: nat, g: nat,
              sparse: bool, faults: set<nat>, calls: nat)
    returns (ok: bool, dst': File, calls': nat)
    requires bs > 0 && Copied(src, dst, inPos, empties * bs)
    requires !sparse ==> empties == 0 && dst.holes == {}
    ensures ok ==> Copied(src, dst', inPos + Min(bs, |src| - inPos), 0)
    ensures !ok ==> dst'.bytes <= src && Valid(dst')
    ensures !sparse ==> dst'.holes == {}
    ensures faults == {} ==> ok
    ensures ok ==> dst.holes <= dst'.holes
    ensures ok && dst'.holes != dst.holes ==>
      sparse && g <= empties && inPos < |src| && dst'.holes == dst.holes + Range(|dst.bytes|, inPos)
    ensures ok && sparse && g <= empties && inPos < |src| ==>
      dst'.holes == dst.holes + Range(|dst.bytes|, inPos)
  {
    var chunk := Chunk(src, inPos, bs);
    ok, dst', calls' := Emit(dst, empties, g, bs, chunk, sparse, faults, calls);
    if !ok {
      PrefixOfZeros(src, dst.bytes, dst'.bytes, inPos);
      return;
    }
    Emitted(src, dst, dst', inPos, empties * bs, |chunk|);
  }

  /** How the held-back count follows the run over one full buffer: it
      grows with a zero buffer that is held back, and restarts otherwise. */
  lemma TracksStep(src: seq<byte>, bs: nat, inPos: nat, empties: nat)
    requires bs > 0 && inPos % bs == 0 && inPos + bs <= |src|
    requires Tracks(src, bs, inPos, empties)
    ensures (inPos + bs) % bs == 0
    ensures ZeroBufferAt(src, bs, inPos) && (empties + 2) * bs <= INT_MAX ==>
      Tracks(src, bs, inPos + bs, empties + 1)
    ensures !(ZeroBufferAt(src, bs, inPos) && (empties + 2) * bs <= INT_MAX) ==>
      Tracks(src, bs, inPos + bs, 0)
  {
    ModAddDivisor(inPos, bs);
    var t := Trailing(src, bs, inPos);
    if ZeroBufferAt(src, bs, inPos) {
      assert Trailing(src, bs, inPos + bs) == t + 1;
      MulSucc(bs, t + 1);
      if (empties + 2) * bs > INT_MAX {
        MulMonoIn(empties + 2, t + 2, bs);
      }
    } else {
      assert Trailing(src, bs, inPos + bs) == 0;
    }
  }

  /** Holding back one more zero buffer keeps the loop's invariant. */
  lemma HoldBack(src: seq<byte>, dst: File, inPos: nat, empties: nat, bs: nat)
    requires Copied(src, dst, inPos, empties * bs)
    requires inPos + bs <= |src| && AllZero(src[inPos..inPos + bs])
    ensures Copied(src, dst, inPos + bs, (empties + 1) * bs)
  {
    ZeroJoinSeq(src, |dst.bytes|, inPos, inPos + bs);
    assert (empties + 1) * bs == empties * bs + bs;
  }

  /** `fcopy` with the overflow flush corrected: when one more held-back
      zero buffer would overflow the count, the held-back buffers are
      flushed and the current one is written as data. Every other step is
      as in the program. */
  method FCopy(src: seq<byte>, dst0: File, gap: nat, physbsize: int, faults: set<nat>)
    returns (r: int, dst: File)
    requires Sizing(gap, physbsize)
    requires Valid(dst0)
    ensures r == 1 || r == -1
    ensures r == 1 ==> dst.bytes == src
    ensures faults == {} ==> r == 1
    ensures dst == dst0 || dst.bytes <= src
    ensures Valid(dst)
    ensures gap == 0 ==> dst == dst0 || dst.holes == {}
    // the file is made sparse: every hole lies in a run of at least `gap`
    // bytes of zero buffers with more of the file after it, and every
    // whole such run is a hole
    ensures r == 1 ==>
      HolesInRuns(src, BufferSize(gap, physbsize), GapBuffers(gap, physbsize), dst.holes)
    ensures r == 1 && gap != 0 ==>
      WholeRunsHoled(src, BufferSize(gap, physbsize), GapBuffers(gap, physbsize), dst.holes, |src|)
  {
    dst := dst0;
    // lseek(in_fd), lseek(out_fd), ftruncate(out_fd)
    if 0 in faults || 1 in faults || 2 in faults {
      r := -1;
      return;
    }
    dst := File([], {});
    var calls := 3;
    if gap != 0 {
      // ioctl(out_fd, FIGETBSZ)
      if calls in faults {
        r := -1;
        return;
      }
      calls := calls + 1;
    }
    var bs := BufferSize(gap, physbsize);
    var g := GapBuffers(gap, physbsize);
    var inPos := 0;
    var empties := 0;
    while true
      invariant Copied(src, dst, inPos, empties * bs)
      invariant gap == 0 ==> empties == 0 && dst.holes == {}
      invariant gap != 0 ==> inPos % bs == 0 && Tracks(src, bs, inPos, empties)
      invariant HolesInRuns(src, bs, g, dst.holes)
      invariant gap != 0 ==> WholeRunsHoled(src, bs, g, dst.holes, inPos)
      decreases |src| - inPos
    {
      var ok, eof;
      var d0, p0, e0 := dst, inPos, empties;
      ok, dst, inPos, empties, calls, eof := Turn(src, dst, inPos, empties, bs, g, gap != 0, faults, calls);
      if !ok {
        r := -1;
        return;
      }
      HolesStep(src, bs, g, d0, dst, p0, e0);
      if gap != 0 {
        WholeRunsStep(src, bs, g, d0, dst, p0, inPos, e0);
      }
      if eof {
        break;
      }
    }
    // fstat(in_fd), fstat(out_fd)
    if calls in faults || calls + 1 in faults {
      r := -1;
      return;
    }
    if |dst.bytes| != |src| {
      r := -1;
      return;
    }
    r := 1;
    assert dst.bytes == src[..|src|];
  }

  /** `fcopy` for any answer of FIGETBSZ. When the answer breaks the
      sizing `fcopy` assumes, the program crashes (`crashed`): on the
      division by a zero block size right after the ioctl, or on the
      assertion of the loop once the first read succeeded; a call that
      fails before that point still returns -1. */
  method CheckedCopy(src: seq<byte>, dst0: File, gap: nat, physbsize: int, faults: set<nat>)
    returns (r: int, dst: File, crashed: bool)
    requires gap != 0 && Valid(dst0)
    ensures Valid(dst)
    ensures crashed <==>
      && !Sizing(gap, physbsize) && 0 !in faults && 1 !in faults && 2 !in faults && 3 !in faults
      && (physbsize == 0 || 4 !in faults)
    ensures !crashed ==> r == 1 || r == -1
    ensures !crashed && r == 1 ==> dst.bytes == src
    ensures Sizing(gap, physbsize) && faults == {} ==> !crashed && r == 1
    ensures dst == dst0 || dst.bytes <= src
  {
    if Sizing(gap, physbsize) {
      r, dst := FCopy(src, dst0, gap, physbsize, faults);
      crashed := false;
      return;
    }
    r, dst, crashed := -1, dst0, false;
    // lseek(in_fd), lseek(out_fd), ftruncate(out_fd)
    if 0 in faults || 1 in faults || 2 in faults {
      return;
    }
    dst := File([], {});
    // ioctl(out_fd, FIGETBSZ), then gap / physbsize
    if 3 in faults {
      return;
    }
    if physbsize == 0 {
      crashed := true;
      return;
    }
    // read(in_fd), then assert(0 == buffsize % sizeof(int))
    if 4 in faults {
      return;
    }
    crashed := true;
  }

  // ---------------------------------------------------------------------
  // Where the holes go.

  /** A full buffer of zeros can be read at `p`. */
  predicate ZeroBufferAt(src: seq<byte>, bs: nat, p: nat) {
    p + bs <= |src| && AllZero(src[p..p + bs])
  }

  /** `m` zero buffers from the buffer boundary `s`, at least `g` of them,
      with more of the file after them. */
  predicate HoleRun(src: seq<byte>, bs: nat, g: nat, s: nat, m: nat)
    requires bs > 0
  {
    s % bs == 0 && g <= m && s + m * bs < |src| && AllZero(src[s..s + m * bs])
  }

  /** Offset `i` lies in such a run. */
  ghost predicate InHoleRun(src: seq<byte>, bs: nat, g: nat, i: nat)
    requires bs > 0
  {
    exists s: nat, m: nat :: HoleRun(src, bs, g, s, m) && s <= i < s + m * bs
  }

  /** A whole run: it starts the file or follows a buffer holding data, the
      read after it does not return a full zero buffer, and it is short
      enough for the count of held-back buffers. */
  predicate WholeRun(src: seq<byte>, bs: nat, g: nat, s: nat, m: nat)
    requires bs > 0
  {
    && HoleRun(src, bs, g, s, m)
    && (s < bs || !ZeroBufferAt(src, bs, s - bs))
    && !ZeroBufferAt(src, bs, s + m * bs)
    && (m + 1) * bs <= INT_MAX
  }

  /** Every hole lies in a run of at least `g` zero buffers. */
  ghost predicate HolesInRuns(src: seq<byte>, bs: nat, g: nat, holes: set<nat>)
    requires bs > 0
  {
    forall i :: i in holes ==> InHoleRun(src, bs, g, i)
  }

  /** Every whole run that ends before `upTo` is a hole. */
  ghost predicate WholeRunsHoled(src: seq<byte>, bs: nat, g: nat, holes: set<nat>, upTo: nat)
    requires bs > 0
  {
    forall s: nat, m: nat :: WholeRun(src, bs, g, s, m) && s + m * bs < upTo ==>
      Range(s, s + m * bs) <= holes
  }

  /** The held-back count is the run of zero buffers just read, except once
      that run grew too long to be held back whole. */
  predicate Tracks(src: seq<byte>, bs: nat, inPos: nat, empties: nat)
    requires bs > 0 && inPos <= |src|
  {
    && empties <= Trailing(src, bs, inPos)
    && ((Trailing(src, bs, inPos) + 1) * bs <= INT_MAX ==> empties == Trailing(src, bs, inPos))
  }

  /** A slice of a zero stretch is a zero stretch. */
  lemma ZeroSlice(src: seq<byte>, a: nat, b: nat, c: nat, d: nat)
    requires a <= c <= d <= b <= |src| && AllZero(src[a..b])
    ensures AllZero(src[c..d])
  {
    forall j | 0 <= j < d - c
      ensures src[c..d][j] == 0
    {
      assert src[a..b][c - a + j] == 0;
    }
  }

  /** Two buffer boundaries less than a buffer apart are the same. */
  lemma SameBoundary(p: nat, q: nat, bs: nat)
    requires bs > 0 && p % bs == 0 && q % bs == 0 && p <= q < p + bs
    ensures p == q
  {
    if p != q {
      MultiplesApart(p, q, bs);
      assert false;
    }
  }

  /** At the end `e` of a whole run of `m` buffers, the zero buffers just
      read are the run. */
  lemma {:induction false} TrailingOfRun(src: seq<byte>, bs: nat, s: nat, m: nat, e: nat)
    requires bs > 0 && e == s + m * bs && e <= |src|
    requires AllZero(src[s..e])
    requires s < bs || !ZeroBufferAt(src, bs, s - bs)
    ensures Trailing(src, bs, e) == m
    decreases m, 1
  {
    if m == 0 {
      NoRunBefore(src, bs, s, e);
    } else {
      var q := OneBufferBack(s, m, bs, e);
      BufferOfRun(src, bs, s, m, q, e);
    }
  }

  /** An empty run: the buffer before `s` is not all zero. */
  lemma NoRunBefore(src: seq<byte>, bs: nat, s: nat, e: nat)
    requires bs > 0 && e == s && e <= |src|
    requires s < bs || !ZeroBufferAt(src, bs, s - bs)
    ensures Trailing(src, bs, e) == 0
  {
  }

  /** One buffer of a run, with the rest of the run handled by induction. */
  lemma {:induction false} BufferOfRun(src: seq<byte>, bs: nat, s: nat, m: nat, q: nat, e: nat)
    requires bs > 0 && 0 < m && q == s + (m - 1) * bs && q + bs == e && s <= q && e <= |src|
    requires AllZero(src[s..e])
    requires s < bs || !ZeroBufferAt(src, bs, s - bs)
    ensures Trailing(src, bs, e) == m
    decreases m, 0
  {
    ZeroSlice(src, s, e, q, e);
    ZeroSlice(src, s, e, s, q);
    TrailingOfRun(src, bs, s, m - 1, q);
    TrailingGrows(src, bs, e);
  }

  /** The end of a run of `m` buffers, one buffer back. */
  lemma OneBufferBack(s: nat, m: nat, bs: nat, e: nat) returns (q: nat)
    requires m > 0 && e == s + m * bs
    ensures q == s + (m - 1) * bs && q + bs == e && s <= q
  {
    MulSucc(bs, m - 1);
    q := s + (m - 1) * bs;
  }

  /** A zero buffer just before `e` adds one to the run ending there. */
  lemma TrailingGrows(src: seq<byte>, bs: nat, e: nat)
    requires 0 < bs <= e <= |src| && AllZero(src[e - bs..e])
    ensures Trailing(src, bs, e) == Trailing(src, bs, e - bs) + 1
  {
  }

  /** The hole made for the `empties` buffers held back before `inPos`
      lies in a run of at least `g` zero buffers. */
  lemma NewHoleInRun(src: seq<byte>, dst: File, bs: nat, g: nat, inPos: nat, empties: nat)
    requires bs > 0 && Copied(src, dst, inPos, empties * bs)
    requires inPos % bs == 0 && g <= empties && inPos < |src|
    ensures HolesInRuns(src, bs, g, Range(|dst.bytes|, inPos))
  {
    var s := |dst.bytes|;
    ModAddMultiple(s, empties, bs);
    assert HoleRun(src, bs, g, s, empties);
  }

  /** The holes after a turn still lie in runs of at least `g` zero
      buffers. */
  lemma HolesStep(src: seq<byte>, bs: nat, g: nat, d0: File, d1: File, inPos: nat, empties: nat)
    requires bs > 0 && Copied(src, d0, inPos, empties * bs)
    requires HolesInRuns(src, bs, g, d0.holes)
    requires d1.holes != d0.holes ==>
      inPos % bs == 0 && g <= empties && inPos < |src| &&
      d1.holes == d0.holes + Range(|d0.bytes|, inPos)
    ensures HolesInRuns(src, bs, g, d1.holes)
  {
    if d1.holes != d0.holes {
      NewHoleInRun(src, d0, bs, g, inPos, empties);
    }
  }

  /** A turn that read from `inPos` to `inPos'` makes the holes of every
      whole run that ends in between, given the held-back count tracks the
      run. */
  lemma WholeRunsStep(src: seq<byte>, bs: nat, g: nat, d0: File, d1: File,
                      inPos: nat, inPos': nat, empties: nat)
    requires bs > 0 && Copied(src, d0, inPos, empties * bs)
    requires inPos % bs == 0 && Tracks(src, bs, inPos, empties) && inPos' <= inPos + bs
    requires WholeRunsHoled(src, bs, g, d0.holes, inPos)
    requires d0.holes <= d1.holes
    requires g <= empties && inPos < |src| && !ZeroBufferAt(src, bs, inPos) ==>
      Range(|d0.bytes|, inPos) <= d1.holes
    ensures WholeRunsHoled(src, bs, g, d1.holes, inPos')
  {
    forall s: nat, m: nat | WholeRun(src, bs, g, s, m) && s + m * bs < inPos'
      ensures Range(s, s + m * bs) <= d1.holes
    {
      var p := s + m * bs;
      if p >= inPos {
        RunEndingHere(src, bs, g, d0, d1, inPos, empties, s, m, p);
      }
    }
  }

  /** A whole run that ends at the buffer just read is the one the turn
      turned into a hole. */
  lemma RunEndingHere(src: seq<byte>, bs: nat, g: nat, d0: File, d1: File,
                      inPos: nat, empties: nat, s: nat, m: nat, p: nat)
    requires bs > 0 && Copied(src, d0, inPos, empties * bs)
    requires inPos % bs == 0 && Tracks(src, bs, inPos, empties)
    requires g <= empties && inPos < |src| && !ZeroBufferAt(src, bs, inPos) ==>
      Range(|d0.bytes|, inPos) <= d1.holes
    requires WholeRun(src, bs, g, s, m) && p == s + m * bs && inPos <= p < inPos + bs
    ensures Range(s, p) <= d1.holes
  {
    ModAddMultiple(s, m, bs);
    SameBoundary(inPos, p, bs);
    TrailingOfRun(src, bs, s, m, p);
  }

  // ---------------------------------------------------------------------
  // The loop as written.

  /** The bookkeeping of the held-back count while no buffer has been
      written twice: the count is the run of zero buffers just read, and no
      run so far was long enough to overflow it. */
  predicate Unbroken(src: seq<byte>, bs: nat, inPos: nat, empties: nat)
    requires bs > 0 && inPos <= |src|
  {
    empties == Trailing(src, bs, inPos) && RunsShortUpTo(src, bs, inPos)
  }

  /** One turn of the loop of `fcopy` as the program has it. The count of
      held-back zero buffers includes the buffer just read before the
      overflow test; when that test forces a flush, the flush covers the
      buffer and the buffer is then written once more. `over` is how far
      the output already runs ahead of the source; `overflowed` says this
      turn added one buffer to it. */
  method TurnAsWritten(src: seq<byte>, dst: File, inPos: nat, empties: nat, bs: nat,
                       g: nat, sparse: bool, faults: set<nat>, calls: nat, ghost over: nat)
    returns (ok: bool, dst': File, inPos': nat, empties': nat, calls': nat, eof: bool,
             overflowed: bool)
    requires 0 < bs <= INT_MAX && inPos <= |src| && Valid(dst)
    requires |dst.bytes| + empties * bs == inPos + over
    requires over == 0 ==> Copied(src, dst, inPos, empties * bs)
    requires sparse ==> inPos % bs == 0 && (empties + 1) * bs <= INT_MAX
    requires sparse && over == 0 ==> Unbroken(src, bs, inPos, empties)
    requires !sparse ==> empties == 0 && over == 0 && dst.holes == {}
    ensures Valid(dst') && inPos' <= |src|
    ensures faults == {} ==> ok
    ensures ok ==> |dst'.bytes| + empties' * bs == inPos' + over + (if overflowed then bs else 0)
    ensures ok && over == 0 && !overflowed ==> Copied(src, dst', inPos', empties' * bs)
    ensures ok && !eof ==> inPos < inPos'
    ensures ok && eof ==> inPos' == |src| && empties' == 0 && !overflowed
    ensures ok && sparse && !eof ==> inPos' % bs == 0 && (empties' + 1) * bs <= INT_MAX
    ensures ok && sparse && over == 0 && !overflowed && !eof ==> Unbroken(src, bs, inPos', empties')
    ensures ok && sparse && over == 0 && eof ==> !LongZeroRun(src, bs)
    ensures ok && over == 0 && overflowed ==> sparse && LongZeroRun(src, bs)
    ensures ok && !sparse ==> empties' == 0 && !overflowed && dst'.holes == {}
  {
    dst', inPos', empties', calls', eof, overflowed := dst, inPos, empties, calls, false, false;
    // read(in_fd)
    if calls in faults {
      ok := false;
      return;
    }
    calls' := calls + 1;
    var chunk := Chunk(src, inPos, bs);
    var len := |chunk|;
    eof := len != bs;
    inPos' := inPos + len;
    var isEmpty := sparse && !eof && AllZero(chunk);
    var held := if isEmpty then empties + 1 else empties;
    if isEmpty && (held + 1) * bs <= INT_MAX {
      // the zero buffer is held back
      HoldFacts(src, dst, inPos, empties, bs, over);
      ok, empties' := true, held;
      return;
    }
    if sparse {
      RunStep(src, bs, inPos, empties, len, over == 0);
    }
    overflowed := isEmpty;
    ok, dst', calls' := EmitAsWritten(src, dst, inPos, empties, bs, g, sparse, faults, calls',
                                      over, overflowed);
    empties' := 0;
    assert empties' * bs == 0 && (empties' + 1) * bs == bs;
  }

  /** Holding back one more zero buffer, as written, keeps the bookkeeping
      of the loop. */
  lemma HoldFacts(src: seq<byte>, dst: File, inPos: nat, empties: nat, bs: nat, over: nat)
    requires 0 < bs <= INT_MAX && inPos + bs <= |src| && AllZero(src[inPos..inPos + bs])
    requires |dst.bytes| + empties * bs == inPos + over
    requires over == 0 ==> Copied(src, dst, inPos, empties * bs)
    requires inPos % bs == 0 && (empties + 2) * bs <= INT_MAX
    requires over == 0 ==> Unbroken(src, bs, inPos, empties)
    ensures |dst.bytes| + (empties + 1) * bs == inPos + bs + over
    ensures over == 0 ==> Copied(src, dst, inPos + bs, (empties + 1) * bs)
    ensures (inPos + bs) % bs == 0
    ensures over == 0 ==> Unbroken(src, bs, inPos + bs, empties + 1)
  {
    RunStep(src, bs, inPos, empties, bs, over == 0);
    if over == 0 {
      HoldBack(src, dst, inPos, empties, bs);
    }
    MulSucc(bs, empties);
  }

  /** The write half of a turn as written: the flush of `empties` held-back
      buffers, plus the current one when it `overflowed`, then the current
      buffer. */
  method EmitAsWritten(src: seq<byte>, dst: File, inPos: nat, empties: nat, bs: nat, g: nat,
                       sparse: bool, faults: set<nat>, calls: nat, ghost over: nat,
                       overflowed: bool)
    returns (ok: bool, dst': File, calls': nat)
    requires 0 < bs <= INT_MAX && inPos <= |src| && Valid(dst)
    requires |dst.bytes| + empties * bs == inPos + over
    requires over == 0 ==> Copied(src, dst, inPos, empties * bs)
    requires !sparse ==> empties == 0 && over == 0 && dst.holes == {} && !overflowed
    requires overflowed ==> inPos + bs <= |src|
    ensures Valid(dst')
    ensures faults == {} ==> ok
    ensures ok ==> |dst'.bytes| == inPos + Min(bs, |src| - inPos) + over + (if overflowed then bs else 0)
    ensures ok && over == 0 && !overflowed ==> Copied(src, dst', inPos + Min(bs, |src| - inPos), 0)
    ensures ok && !sparse ==> dst'.holes == {}
  {
    var chunk := Chunk(src, inPos, bs);
    var held := if overflowed then empties + 1 else empties;
    MulSucc(bs, empties);
    ok, dst', calls' := Emit(dst, held, g, bs, chunk, sparse, faults, calls);
    if ok && !overflowed && over == 0 {
      Emitted(src, dst, dst', inPos, empties * bs, |chunk|);
    }
  }

  /** How the run bookkeeping moves over one buffer in sparse mode. */
  lemma RunStep(src: seq<byte>, bs: nat, inPos: nat, empties: nat, len: nat, unbroken: bool)
    requires bs > 0 && inPos + len <= |src| && len == Min(bs, |src| - inPos)
    requires inPos % bs == 0 && (empties + 1) * bs <= INT_MAX
    requires unbroken ==> Unbroken(src, bs, inPos, empties)
    ensures len == bs ==> (inPos + bs) % bs == 0
    ensures len == bs && !AllZero(src[inPos..inPos + bs]) && unbroken ==>
      Unbroken(src, bs, inPos + bs, 0)
    ensures len == bs && AllZero(src[inPos..inPos + bs]) && unbroken && (empties + 2) * bs <= INT_MAX ==>
      Unbroken(src, bs, inPos + bs, empties + 1)
    ensures len == bs && AllZero(src[inPos..inPos + bs]) && unbroken && (empties + 2) * bs > INT_MAX ==>
      LongZeroRun(src, bs)
    ensures len != bs && unbroken ==> !LongZeroRun(src, bs)
  {
    if len == bs {
      ModAddDivisor(inPos, bs);
      if unbroken {
        var q := inPos + bs;
        if AllZero(src[inPos..q]) {
          assert Trailing(src, bs, q) == empties + 1;
          assert (empties + 2) * bs == (Trailing(src, bs, q) + 1) * bs;
          if (empties + 2) * bs <= INT_MAX {
            ShortExtends(src, bs, inPos);
          } else {
            LongAt(src, bs, q);
          }
        } else {
          assert Trailing(src, bs, q) == 0;
          ShortExtends(src, bs, inPos);
        }
      }
    } else if unbroken {
      ShortToEnd(src, bs, inPos);
    }
  }

  /** A run that stays short at the next boundary keeps all runs short. */
  lemma ShortExtends(src: seq<byte>, bs: nat, inPos: nat)
    requires bs > 0 && inPos % bs == 0 && inPos + bs <= |src|
    requires RunsShortUpTo(src, bs, inPos)
    requires (Trailing(src, bs, inPos + bs) + 1) * bs <= INT_MAX
    ensures RunsShortUpTo(src, bs, inPos + bs)
  {
    forall p | 0 < p <= inPos + bs && p % bs == 0
      ensures (Trailing(src, bs, p) + 1) * bs <= INT_MAX
    {
      if p > inPos {
        MultiplesApart(inPos, p, bs);
      }
    }
  }

  /** Past the last boundary before the end, no further run can end. */
  lemma ShortToEnd(src: seq<byte>, bs: nat, inPos: nat)
    requires bs > 0 && inPos % bs == 0 && inPos <= |src| < inPos + bs
    requires RunsShortUpTo(src, bs, inPos)
    ensures !LongZeroRun(src, bs)
  {
    forall p | 0 < p <= |src| && p % bs == 0
      ensures (Trailing(src, bs, p) + 1) * bs <= INT_MAX
    {
      if p > inPos {
        MultiplesApart(inPos, p, bs);
      }
    }
  }

  /** A run long enough at one boundary is a long run of the file. */
  lemma LongAt(src: seq<byte>, bs: nat, q: nat)
    requires bs > 0 && 0 < q <= |src| && q % bs == 0
    requires (Trailing(src, bs, q) + 1) * bs > INT_MAX
    ensures LongZeroRun(src, bs)
  {
  }

  /** A long run up to `q` is a long run up to any later point. */
  lemma RunsShortPrefix(src: seq<byte>, bs: nat, q: nat, q': nat)
    requires bs > 0 && q <= q' <= |src|
    requires RunsShortUpTo(src, bs, q')
    ensures RunsShortUpTo(src, bs, q)
  {
  }

  /** `fcopy` as the program has it. The output comes out right whenever it
      reports success, but a source holding a run of zero buffers long
      enough to overflow the held-back count is copied with one buffer
      written twice, the final size check fails, and the copy reports
      failure even though no system call failed. */
  method FCopyAsWritten(src: seq<byte>, dst0: File, gap: nat, physbsize: int, faults: set<nat>)
    returns (r: int, dst: File)
    requires Sizing(gap, physbsize)
    requires Valid(dst0)
    ensures r == 1 || r == -1
    ensures r == 1 ==> dst.bytes == src
    ensures Valid(dst)
    ensures gap != 0 && LongZeroRun(src, BufferSize(gap, physbsize)) ==> r == -1
    ensures faults == {} && (gap == 0 || !LongZeroRun(src, BufferSize(gap, physbsize))) ==> r == 1
  {
    dst := dst0;
    // lseek(in_fd), lseek(out_fd), ftruncate(out_fd)
    if 0 in faults || 1 in faults || 2 in faults {
      r := -1;
      return;
    }
    dst := File([], {});
    var calls := 3;
    if gap != 0 {
      // ioctl(out_fd, FIGETBSZ)
      if calls in faults {
        r := -1;
        return;
      }
      calls := calls + 1;
    }
    var bs := BufferSize(gap, physbsize);
    var g := GapBuffers(gap, physbsize);
    var inPos: nat := 0;
    var empties: nat := 0;
    ghost var over: nat := 0;
    while true
      invariant inPos <= |src| && Valid(dst)
      invariant |dst.bytes| + empties * bs == inPos + over
      invariant over == 0 ==> Copied(src, dst, inPos, empties * bs)
      invariant gap != 0 ==> inPos % bs == 0 && (empties + 1) * bs <= INT_MAX
      invariant gap != 0 && over == 0 ==> Unbroken(src, bs, inPos, empties)
      invariant gap == 0 ==> empties == 0 && over == 0 && dst.holes == {}
      invariant over > 0 ==> gap != 0 && LongZeroRun(src, bs)
      decreases |src| - inPos
    {
      var ok, eof, overflowed;
      ghost var over0 := over;
      ok, dst, inPos, empties, calls, eof, overflowed :=
        TurnAsWritten(src, dst, inPos, empties, bs, g, gap != 0, faults, calls, over);
      if !ok {
        r := -1;
        return;
      }
      if overflowed {
        over := over + bs;
      }
      if eof {
        break;
      }
    }
    // fstat(in_fd), fstat(out_fd)
    if calls in faults || calls + 1 in faults {
      r := -1;
      return;
    }
    if |dst.bytes| != |src| {
      r := -1;
      return;
    }
    r := 1;
    assert dst.bytes == src[..|src|];
  }



  /** The tail of a zero stretch is a zero stretch. */
  lemma ZeroTail(src: seq<byte>, a: nat, b: nat, c: nat)
    requires a <= b <= c <= |src| && AllZero(src[a..c])
    ensures AllZero(src[b..c])
  {
    forall j | 0 <= j < c - b
      ensures src[b..c][j] == 0
    {
      assert src[a..c][b - a + j] == 0;
    }
  }

  /** Zeros written over a zero stretch of the source keep the output a
      prefix of the source. */
  lemma PrefixOfZeros(src: seq<byte>, d: seq<byte>, out: seq<byte>, inPos: nat)
    requires d <= src && d <= out && |out| <= inPos <= |src|
    requires AllZero(src[|d|..inPos]) && AllZero(out[|d|..])
    ensures out <= src
  {
    forall i | |d| <= i < |out|
      ensures out[i] == src[i]
    {
      assert out[|d|..][i - |d|] == 0;
      assert src[|d|..inPos][i - |d|] == 0;
    }
  }



  /** In a source of zeros, the run before every offset is all of it. */
  lemma {:induction false} TrailingOfZeros(z: seq<byte>, bs: nat, p: nat)
    requires bs > 0 && p <= |z| && AllZero(z)
    ensures Trailing(z, bs, p) == p / bs
    decreases p
  {
    if p >= bs {
      assert AllZero(z[p - bs..p]);
      TrailingOfZeros(z, bs, p - bs);
      DivModUnique((p - bs) / bs + 1, (p - bs) % bs, bs);
      assert ((p - bs) / bs + 1) * bs + (p - bs) % bs == p;
    } else {
      DivModUnique(0, p, bs);
    }
  }

  /** A source of `n > 0` zeros, `n` a whole number of buffers, with `n` plus
      one buffer past INT_MAX, is a long zero run. */
  lemma ZerosAreALongRun(n: nat, bs: nat)
    requires 0 < bs && 0 < n && n % bs == 0 && n + bs > INT_MAX
    ensures LongZeroRun(Zeros(n), bs)
  {
    var z := Zeros(n);
    TrailingOfZeros(z, bs, n);
    assert n / bs * bs == n;
    assert (Trailing(z, bs, n) + 1) * bs > INT_MAX;
  }

  /** The failure the overflow flush causes: copying 2 GiB of zeros with
      4 KiB buffers, a copy nothing disturbs returns -1 as written, 1 once
      corrected. */
  method TwoGibOfZeros() returns (asWritten: int, corrected: int)
    ensures asWritten == -1 && corrected == 1
  {
    var n := 0x8000_0000;
    ZerosAreALongRun(n, 4096);
    var d;
    asWritten, d := FCopyAsWritten(Zeros(n), File([], {}), 4096, 4096, {});
    corrected, d := FCopy(Zeros(n), File([], {}), 4096, 4096, {});
  }
}

=== FILE: ctypes.dfy ===
/** Machine-level conventions of the C program, stated on Dafny's unbounded
    integers: fixed-width conversions, C's truncating division and the
    `Option` wrapper used for calls that may fail. */
module CTypes {

  /** A value that may be absent: a failed system call, a NULL pointer. */
  datatype Option<+T> = None | Some(value: T)

  const INT_MAX: int := 0x7FFF_FFFF
  const INT_MIN: int := -0x8000_0000
  const UINT32_MODULUS: int := 0x1_0000_0000

  type byte = x: int | 0 <= x < 256
  type uint32 = x: int | 0 <= x < 0x1_0000_0000

  function Abs(x: int): nat {
    if x < 0 then -x else x
  }

  function Min(a: int, b: int): int {
    if a <= b then a else b
  }

  /** Conversion of any integer to `uint32_t` or `uint`: reduction modulo 2^32. */
  function ToUInt32(x: int): (r: uint32)
    ensures (x - r) % UINT32_MODULUS == 0
    ensures 0 <= x < UINT32_MODULUS ==> r == x
  {
    x % UINT32_MODULUS
  }

  /** Conversion of a `long long` to `int`, wrapping modulo 2^32 as gcc does
      on two's-complement targets. */
  function ToInt32(x: int): (r: int)
    ensures INT_MIN <= r <= INT_MAX
    ensures (x - r) % UINT32_MODULUS == 0
    ensures INT_MIN <= x <= INT_MAX ==> r == x
  {
    var u := x % UINT32_MODULUS;
    if u > INT_MAX then u - UINT32_MODULUS else u
  }

  /** `abs` on an `int`: the magnitude, except that INT_MIN has no positive
      counterpart and comes back unchanged (what the two's-complement
      negation yields). */
  function CAbs(x: int): (r: int)
    requires INT_MIN <= x <= INT_MAX
    ensures x != INT_MIN ==> r == Abs(x)
    ensures x == INT_MIN ==> r < 0
  {
    if x == INT_MIN then x else Abs(x)
  }

  /** C's integer division by a positive divisor: the quotient is truncated
      toward zero, so the remainder takes the sign of the dividend (Dafny's
      own `/` rounds toward minus infinity for a negative dividend). */
  function CDiv(a: int, b: int): (q: int)
    requires b > 0
    ensures a >= 0 ==> 0 <= a - q * b < b
    ensures a < 0 ==> -b < a - q * b <= 0
  {
    if a >= 0 then a / b else -((-a) / b)
  }

  /** Conversion of a `double` to an integer type: truncation toward zero. */
  function TruncReal(x: real): (r: int)
    ensures x >= 0.0 ==> 0 <= r && r as real <= x < r as real + 1.0
    ensures x < 0.0 ==> r <= 0 && r as real - 1.0 < x <= r as real
  {
    if x >= 0.0 then x.Floor else -((-x).Floor)
  }

  // ---------------------------------------------------------------------
  // Arithmetic facts the models need.

  lemma DivModUnique(q: int, r: int, b: int)
    requires b > 0 && 0 <= r < b
    ensures (q * b + r) / b == q
    ensures (q * b + r) % b == r
  {
    var k := (q * b + r) / b;
    var m := (q * b + r) % b;
    assert (k - q) * b == r - m;
    SmallMultiple(k - q, b);
  }

  lemma SmallMultiple(n: int, b: int)
    requires b > 0 && -b < n * b < b
    ensures n == 0
  {
    if n > 0 {
      MulMono(n, b);
    } else if n < 0 {
      MulMono(-n, b);
    }
  }

  lemma MulMono(n: int, b: int)
    requires n >= 1 && b > 0
    ensures n * b >= b
  {
  }

  /** Adding the divisor does not change the remainder. */
  lemma ModAddDivisor(a: int, b: int)
    requires b > 0
    ensures (a + b) % b == a % b
  {
    assert a + b == (a / b + 1) * b + a % b;
    DivModUnique(a / b + 1, a % b, b);
  }

  /** Two distinct multiples of `b` lie at least `b` apart. */
  lemma MultiplesApart(a: int, p: int, b: int)
    requires b > 0 && a % b == 0 && p % b == 0 && a < p
    ensures a + b <= p
  {
    var k := p / b - a / b;
    assert k * b == p - a;
    if k <= 0 {
      MulMono(1 - k, b);
    } else {
      MulMono(k, b);
    }
  }

  /** One more multiple: a * (k + 1) is a * k plus a. */
  lemma MulSucc(a: int, k: int)
    ensures a * (k + 1) == a * k + a
  {
  }

  /** Adding a multiple of the divisor does not change the remainder. */
  lemma ModAddMultiple(a: int, k: nat, b: int)
    requires b > 0
    ensures (a + k * b) % b == a % b
  {
    assert a + k * b == (a / b + k) * b + a % b;
    DivModUnique(a / b + k, a % b, b);
  }
}

=== FILE: files.dfy ===
/** Regular files as the copy loop sees them: their bytes, and which of
    those bytes lie in holes (ranges the filesystem has not allocated,
    which read as zeros). */
module Files {
  import opened CTypes

  datatype File = File(bytes: seq<byte>, holes: set<nat>)

  /** Every hole lies inside the file and reads as zero. */
  predicate Valid(f: File) {
    forall i :: i in f.holes ==> i < |f.bytes| && f.bytes[i] == 0
  }

  predicate AllZero(s: seq<byte>) {
    forall i :: 0 <= i < |s| ==> s[i] == 0
  }

  /** `n` zero bytes. */
  function Zeros(n: nat): (z: seq<byte>)
    ensures |z| == n && AllZero(z)
  {
    seq(n, i => 0)
  }

  /** The offsets from `lo` up to, not including, `hi`. */
  function Range(lo: nat, hi: nat): (r: set<nat>)
    ensures forall i :: i in r <==> lo <= i < hi
    decreases hi
  {
    if hi <= lo then {} else Range(lo, hi - 1) + {hi - 1}
  }

  /** The file a `write` of `data` at offset `pos`, at or past the end,
      leaves: the bytes between the old end and `pos` become a hole. A
      write of nothing changes nothing. */
  function WriteAt(f: File, pos: nat, data: seq<byte>): (g: File)
    requires pos >= |f.bytes|
    ensures |data| == 0 ==> g == f
    ensures |data| > 0 ==> |g.bytes| == pos + |data|
    ensures g.bytes[..|f.bytes|] == f.bytes
    ensures |data| > 0 ==> g.bytes[pos..] == data
    ensures |data| > 0 ==> AllZero(g.bytes[|f.bytes|..pos])
    ensures |data| > 0 ==> g.holes == f.holes + Range(|f.bytes|, pos)
    ensures Valid(f) ==> Valid(g)
  {
    if |data| == 0 then f
    else
      var g := File(f.bytes + Zeros(pos - |f.bytes|) + data, f.holes + Range(|f.bytes|, pos));
      assert g.bytes[..|f.bytes|] == f.bytes;
      assert g.bytes[pos..] == data;
      assert g.bytes[|f.bytes|..pos] == Zeros(pos - |f.bytes|);
      g
  }

  /** A write at the end: the file grows by `data` and gains no hole. */
  lemma AppendKeepsHoles(f: File, data: seq<byte>)
    requires |data| > 0
    ensures WriteAt(f, |f.bytes|, data) == File(f.bytes + data, f.holes)
  {
    assert Range(|f.bytes|, |f.bytes|) == {};
  }
}

=== FILE: investigate.dfy ===
/** `investigate` (judge.c): builds the accused for one name from what the
    system reports about it. Every system call is an input: the `Probe`
    gathers their answers. */
module Investigation {
  import opened CTypes
  import opened Records
  import opened Testimony
  import opened Ptime
  import opened Judgment

  /** The answers of the system calls `investigate` makes about one name:
      `lstat`, `open`, the read lock, `fstat`, the `shake.ptime` attribute,
      FIGETBSZ and FIBMAP. None stands for a failed call. */
  datatype Probe = Probe(
    lstat: Option<Stat>,
    openOk: bool,
    lockOk: bool,
    fstat: Option<Stat>,
    ptime: Option<seq<byte>>,
    bsz: Option<int>,
    fibmap: nat -> Fibmap)

  /** The shapes of answer the modelled calls can give: an attribute read
      never returns fewer bytes than the date needs, a block size is
      positive. */
  predicate WellFormed(p: Probe) {
    && (p.ptime.Some? ==> |p.ptime.value| >= DATE_SIZE)
    && (p.bsz.Some? ==> p.bsz.value > 0)
  }

  /** The accused as `lstat` alone describes it, with every other field at
      its default. */
  function Sketch(name: string, st: Stat): Accused {
    Accused(st.mode, name, false, st.blocks * 512, 0, 0, 0, 0, 0, 0, 0, 0, 0,
            None, st.dev, false)
  }

  /** The entry needs no open file: it is not a regular file, or it holds no
      block. */
  predicate Shallow(st: Stat) {
    st.mode.kind != Regular || st.blocks * 512 == 0
  }

  /** The age of a file: seconds since its placement time when the
      attribute holds a usable one, else since its status change. */
  function Age(l: Law, fst: Stat, ptime: Option<seq<byte>>, now: int): int
    requires ptime.Some? ==> |ptime.value| >= DATE_SIZE
  {
    var placed := if l.xattr then GetPtime(ptime, now) else -1;
    if placed != -1 then now - placed else now - fst.ctime
  }

  /** `investigate`: None stands for the NULL return, after which the name
      is skipped. `now` is the clock. */
  function Investigate(name: string, l: Law, now: int, p: Probe): (r: Option<Accused>)
    requires WellFormed(p)
    ensures p.lstat.None? ==> r.None?
    ensures r.Some? ==>
      && p.lstat.Some?
      && r.value.name == name
      && r.value.mode == p.lstat.value.mode
      && r.value.fs == p.lstat.value.dev
      && r.value.ideal == 0 && !r.value.guilty
      && r.value.size >= 0
    ensures p.lstat.Some? && Shallow(p.lstat.value) ==> r == Some(Sketch(name, p.lstat.value))
    ensures p.lstat.Some? && !Shallow(p.lstat.value) ==>
      (r.Some? <==>
        && p.openOk && (!l.locks || p.lockOk) && p.fstat.Some?
        && p.fstat.value.ino == p.lstat.value.ino && p.fstat.value.dev == p.lstat.value.dev
        && p.bsz.Some?
        && !SomeQueryFails(p.fibmap, Queried(Blocks(p.fstat.value.blocks * 512, p.bsz.value))))
    ensures r.Some? && r.value.open ==>
      && p.fstat.Some?
      && r.value.size == p.fstat.value.blocks * 512
      && r.value.atime == p.fstat.value.atime
      && r.value.mtime == p.fstat.value.mtime
      && r.value.fragc <= r.value.blocks
      && r.value.crumbc <= r.value.fragc
      && (r.value.start == 0 <==> r.value.end == 0)
      && (l.xattr && GetPtime(p.ptime, now) != -1 ==> 0 <= r.value.age == now - GetPtime(p.ptime, now))
      && (!l.xattr || GetPtime(p.ptime, now) == -1 ==> r.value.age == now - p.fstat.value.ctime)
    ensures r.Some? && r.value.open ==>
      var t := GetTestimony(r.value.size, l.crumbratio, l.verbosity, p.bsz, p.fibmap);
      && t.Some?
      && r.value.blocks == t.value.blocks && r.value.fragc == t.value.fragc
      && r.value.crumbc == t.value.crumbc
      && r.value.start == t.value.start && r.value.end == t.value.end
  {
    match p.lstat
    case None => None
    case Some(ls) =>
      var a := Sketch(name, ls);
      if Shallow(ls) then Some(a)
      else if !p.openOk then None
      else if l.locks && !p.lockOk then None
      else if p.fstat.None? then None
      else
        var fs := p.fstat.value;
        if fs.ino != ls.ino || fs.dev != ls.dev then None
        else
          var size := fs.blocks * 512;
          match GetTestimony(size, l.crumbratio, l.verbosity, p.bsz, p.fibmap)
          case None => None
          case Some(t) =>
            Some(a.(open := true, size := size, blocks := t.blocks, fragc := t.fragc,
                    crumbc := t.crumbc, start := t.start, end := t.end,
                    atime := fs.atime, mtime := fs.mtime,
                    age := Age(l, fs, p.ptime, now), log := t.log))
  }

  /** When nothing changes between `investigate` and `judge`, the re-check
      of `judge` passes exactly when the file's mode as `lstat` saw it
      matches `fstat`'s: only the mode is not compared during the
      investigation itself. */
  lemma RecheckOfUntouchedFile(name: string, l: Law, now: int, p: Probe)
    requires WellFormed(p)
    requires Investigate(name, l, now, p).Some?
    requires Investigate(name, l, now, p).value.open
    ensures p.fstat.Some? && p.lstat.Some?
    ensures Unchanged(Investigate(name, l, now, p).value, p.fstat.value)
      <==> p.fstat.value.mode == p.lstat.value.mode
  {
  }
}

=== FILE: judgment.dfy ===
/** The judgment engine (judge.c): the tolerance of a file, the guilt
    verdict, the ideal start offset computed from the neighbours in an
    access-time ordered listing, and the dispatch of `judge` over file
    kinds with its re-check against concurrent modification. */
module Judgment {
  import opened CTypes
  import opened Records

  // ---------------------------------------------------------------------
  // tol_reg and judge_reg.

  /** The file is in the small tier: a small size is set and the file is
      below it. */
  predicate SmallTier(size: int, l: Law) {
    l.smallsize != 0 && size < l.smallsize
  }

  /** The file is in the big tier: a big size is set and the file is above
      it. */
  predicate BigTier(size: int, l: Law) {
    l.bigsize != 0 && size > l.bigsize
  }

  /** `tol_reg`: the multiplier applied to every threshold. */
  function Tolerance(size: int, l: Law): (tol: real)
    ensures SmallTier(size, l) ==> tol == l.smallsizeTol
    ensures !SmallTier(size, l) && BigTier(size, l) ==> tol == l.bigsizeTol
    ensures !SmallTier(size, l) && !BigTier(size, l) ==> tol == 1.0
  {
    if size < l.smallsize && l.smallsize != 0 then l.smallsizeTol
    else if size > l.bigsize && l.bigsize != 0 then l.bigsizeTol
    else 1.0
  }

  /** Under a law whose small size does not exceed its big size, no file is
      in both tiers, so the precedence of the small tier never decides. */
  lemma TiersDisjoint(size: int, l: Law)
    requires 0 <= l.smallsize <= l.bigsize
    ensures !(SmallTier(size, l) && BigTier(size, l))
  {
  }

  /** A file the law does not consider at all: its tolerance is the
      disabling sentinel, or it is younger than the `new` age. */
  predicate Exempt(a: Accused, l: Law) {
    var tol := Tolerance(a.size, l);
    tol == MAX_TOL || (a.age as real) < (l.newAge as real) * tol
  }

  /** The distance between the start of a file and its ideal start, as the
      `(int)` cast and `abs` of the program compute it. */
  function Deviance(a: Accused): int {
    CAbs(ToInt32(a.start - a.ideal))
  }

  /** The reasons for which a file not exempt is guilty. */
  predicate TooOld(a: Accused, l: Law) {
    (a.age as real) > (l.oldAge as real) * Tolerance(a.size, l)
  }

  predicate TooFragmented(a: Accused, l: Law) {
    (a.fragc as real) > (l.maxfragc as real) * Tolerance(a.size, l)
  }

  predicate TooCrumbly(a: Accused, l: Law) {
    (a.crumbc as real) > (l.maxcrumbc as real) * Tolerance(a.size, l)
  }

  predicate Misplaced(a: Accused, l: Law) {
    && l.maxdeviance != 0 && a.start != 0 && a.ideal != 0
    && (Deviance(a) as real) > (l.maxdeviance as real) * Tolerance(a.size, l)
  }

  /** `judge_reg`: a regular file is guilty when it is not exempt and has
      at least one reason to be; exemptions are tested first and win. */
  function JudgeReg(a: Accused, l: Law): (guilty: bool)
    requires a.mode.kind == Regular
    ensures guilty <==>
      !Exempt(a, l) && (TooOld(a, l) || TooFragmented(a, l) || TooCrumbly(a, l) || Misplaced(a, l))
  {
    var tol := Tolerance(a.size, l);
    if tol == MAX_TOL then false
    else if (a.age as real) < (l.newAge as real) * tol then false
    else if (a.age as real) > (l.oldAge as real) * tol then true
    else if (a.fragc as real) > (l.maxfragc as real) * tol then true
    else if (a.crumbc as real) > (l.maxcrumbc as real) * tol then true
    else if l.maxdeviance != 0 && a.start != 0 && a.ideal != 0
            && (CAbs(ToInt32(a.start - a.ideal)) as real) > (l.maxdeviance as real) * tol then true
    else false
  }

  /** More fragments, more crumbs or a greater age never acquit a file
      that was guilty. */
  lemma GuiltIsMonotone(a: Accused, b: Accused, l: Law)
    requires a.mode.kind == Regular && b.mode.kind == Regular
    requires b == a.(fragc := b.fragc, crumbc := b.crumbc, age := b.age)
    requires a.fragc <= b.fragc && a.crumbc <= b.crumbc && a.age <= b.age
    requires JudgeReg(a, l)
    ensures JudgeReg(b, l)
  {
    var tol := Tolerance(a.size, l);
    assert (a.age as real) <= (b.age as real);
    assert (a.fragc as real) <= (b.fragc as real);
    assert (a.crumbc as real) <= (b.crumbc as real);
  }

  /** With a non-negative tolerance and a law where `new` does not exceed
      `old`, the age test for old files is reachable: every file older than
      `old` times the tolerance is guilty. */
  lemma OldFilesAreGuilty(a: Accused, l: Law)
    requires a.mode.kind == Regular
    requires l.newAge <= l.oldAge
    requires Tolerance(a.size, l) >= 0.0
    requires (a.age as real) > (l.oldAge as real) * Tolerance(a.size, l)
    ensures JudgeReg(a, l)
  {
    var tol := Tolerance(a.size, l);
    RealMulMono(l.newAge as real, l.oldAge as real, tol);
  }

  lemma RealMulMono(x: real, y: real, t: real)
    requires x <= y && t >= 0.0
    ensures x * t <= y * t
  {
    assert y * t - x * t == (y - x) * t;
  }

  // ---------------------------------------------------------------------
  // The ideal offset (the neighbour block of judge_list).

  /** Two files are used together when their access times are less than
      MAGICTIME apart. */
  predicate UsedTogether(n: Accused, y: Accused) {
    Abs(n.atime - y.atime) < MAGICTIME
  }

  /** The left neighbour counts: it exists, has a known end, and was used
      together with the file. */
  predicate LeftCounts(x: Option<Accused>, y: Accused) {
    x.Some? && x.value.end != 0 && UsedTogether(x.value, y)
  }

  /** The right neighbour counts: it exists, has a known start, and was
      used together with the file. */
  predicate RightCounts(z: Option<Accused>, y: Accused) {
    z.Some? && z.value.start != 0 && UsedTogether(z.value, y)
  }

  /** Where `y` would ideally start given its neighbours `x` (before it in
      the listing) and `z` (after it); 0 when unknown. */
  function Ideal(x: Option<Accused>, y: Accused, z: Option<Accused>): (ideal: int)
    ensures y.start == 0 || (!LeftCounts(x, y) && !RightCounts(z, y)) ==> ideal == 0
    ensures y.start != 0 && LeftCounts(x, y) && !RightCounts(z, y) ==>
      ideal - x.value.end == MAGICLEAP
    ensures y.start != 0 && !LeftCounts(x, y) && RightCounts(z, y) ==>
      z.value.start - (ideal + y.size) == MAGICLEAP
    ensures y.start != 0 && LeftCounts(x, y) && RightCounts(z, y) ==>
      var before := ideal - x.value.end;
      var after := z.value.start - (ideal + y.size);
      -1 <= before - after - MAGICLEAP <= 1
    ensures y.start != 0 && LeftCounts(x, y) && RightCounts(z, y) ==>
      var twice := x.value.end + z.value.start + MAGICLEAP - y.size;
      && (twice >= 0 ==> 0 <= twice - 2 * ideal <= 1)
      && (twice < 0 ==> -1 <= twice - 2 * ideal <= 0)
  {
    if y.start == 0 then 0
    else if LeftCounts(x, y) then
      if RightCounts(z, y) then CDiv(x.value.end + z.value.start + MAGICLEAP - y.size, 2)
      else x.value.end + MAGICLEAP
    else if RightCounts(z, y) then z.value.start - y.size - MAGICLEAP
    else 0
  }

  /** The accused `y` with its ideal offset set (reset first, as the loop
      does). */
  function Place(x: Option<Accused>, y: Accused, z: Option<Accused>): Accused {
    y.(ideal := Ideal(x, y, z))
  }

  /** With both neighbours at hand, the file is centred between them with
      MAGICLEAP of extra room before it: left neighbour ending at 1000,
      right one starting at 3000, a 500-byte file. */
  lemma IdealBetweenNeighbours(x: Accused, y: Accused, z: Accused)
    requires x.end == 1000 && z.start == 3000 && y.size == 500 && y.start != 0
    requires x.atime == y.atime == z.atime
    ensures Ideal(Some(x), y, Some(z)) == (1000 + 3000 + MAGICLEAP - 500) / 2 == 34518
  {
  }

  /** With an odd negative sum the division truncates toward zero: a left
      neighbour ending at 1, a right one starting at 2 and a file of
      MAGICLEAP + 6 bytes give -3 / 2, which is -1 and not the floor -2. */
  lemma IdealTruncatesTowardZero(x: Accused, y: Accused, z: Accused)
    requires x.end == 1 && z.start == 2 && y.size == MAGICLEAP + 6 && y.start != 0
    requires x.atime == y.atime == z.atime
    ensures Ideal(Some(x), y, Some(z)) == -1
  {
  }

  // ---------------------------------------------------------------------
  // judge and judge_dir.

  /** What `judge` did with an accused. */
  datatype Ruling =
    | Passed(code: int)                 // returned without judging anything
    | Descended(listing: Option<int>)   // a directory: its listing was read
                                        // (None: list_dir failed) and judged
    | Tried(guilty: bool)               // judge_reg ran; shake_reg runs if guilty

  /** The value `judge` returns. */
  function Code(r: Ruling): int {
    match r
    case Passed(c) => c
    case Descended(listing) => if listing.Some? then listing.value else -1
    case Tried(g) => if g then 1 else 0
  }

  /** The directory lies outside the filesystem the walk is confined to. */
  predicate Foreign(a: Accused, l: Law) {
    l.kingdom != ANY_FS && a.fs != l.kingdom
  }

  /** `judge_dir`: `listing` is the outcome of listing the directory and
      judging that list. */
  function JudgeDir(a: Accused, l: Law, listing: Option<int>): (r: Ruling)
    requires a.fs != ANY_FS
    ensures Foreign(a, l) <==> r == Passed(0)
    ensures !Foreign(a, l) ==> r == Descended(listing)
  {
    if l.kingdom != ANY_FS && a.fs != l.kingdom then Passed(0)
    else Descended(listing)
  }

  /** The file has not changed since it was investigated: the blocks,
      modification time and mode `fstat` reports still match. */
  predicate Unchanged(a: Accused, st: Stat) {
    st.blocks * 512 == a.size && st.mtime == a.mtime && st.mode == a.mode
  }

  /** `judge`. `locked` says whether the read lock was obtained, `recheck`
      is what `fstat` reports now (None when it fails), `listing` the
      outcome of walking a directory's listing. */
  function Judge(a: Accused, l: Law, locked: bool, recheck: Option<Stat>,
                 listing: Option<int>): (r: Ruling)
    requires a.mode.kind == Directory ==> a.fs != ANY_FS
    ensures a.mode.kind == Symlink ==> r == Passed(0)
    ensures a.mode.kind == Directory ==> r == JudgeDir(a, l, listing)
    ensures a.mode.kind == OtherKind || (a.mode.kind == Regular && a.size == 0) ==>
      r == Passed(if a.guilty then 1 else 0)
    ensures a.mode.kind == Regular && a.size != 0 ==>
      && (r.Tried? <==> (!l.locks || locked) && recheck.Some? && Unchanged(a, recheck.value))
      && (r.Tried? ==> r.guilty == JudgeReg(a, l))
      && (!r.Tried? ==> r == Passed(0))
    ensures Code(r) == -1 ==>
      a.mode.kind == Directory && !Foreign(a, l) && (listing.None? || listing == Some(-1))
  {
    if a.mode.kind == Symlink then Passed(0)
    else if a.mode.kind == Directory then JudgeDir(a, l, listing)
    else if a.mode.kind == Regular && a.size != 0 then
      if l.locks && !locked then Passed(0)
      else if recheck.None? then Passed(0)
      else if !Unchanged(a, recheck.value) then Passed(0)
      else Tried(JudgeReg(a, l))
    else Passed(if a.guilty then 1 else 0)
  }
}

=== FILE: operands.dfy ===
/** The body of `main` (main.c): after the options, either the names read
    from standard input are judged, or each operand on the command line
    is investigated and judged in turn, the walk confined to the
    operand's own filesystem unless `-m` lifted the confinement. */
module Operands {
  import opened CTypes
  import opened Records
  import opened Judgment
  import opened Window
  import opened Options

  /** One operand that was judged, and the kingdom `judge` saw for it. */
  datatype Visit = Visit(accused: Accused, kingdom: dev)

  /** The kingdom after an operand is investigated: its filesystem, unless
      the kingdom lets the walk cross filesystems. */
  function NextKingdom(k: dev, a: Accused): (k': dev)
    ensures k == ANY_FS ==> k' == ANY_FS
    ensures k != ANY_FS ==> k' == a.fs
  {
    if k != ANY_FS then a.fs else k
  }

  /** The kingdom once the operands `cases` have been gone through. */
  function KingdomAfter(k: dev, cases: seq<Option<Accused>>): dev
    decreases |cases|
  {
    if |cases| == 0 then k
    else
      var k0 := KingdomAfter(k, cases[..|cases| - 1]);
      var last := cases[|cases| - 1];
      if last.Some? then NextKingdom(k0, last.value) else k0
  }

  /** The loop over the operands: `cases[i]` is what `investigate` made of
      the i-th one (None: skipped). */
  function Walk(k: dev, cases: seq<Option<Accused>>): seq<Visit>
    decreases |cases|
  {
    if |cases| == 0 then []
    else
      var init := cases[..|cases| - 1];
      var last := cases[|cases| - 1];
      Walk(k, init) +
        (if last.Some? then [Visit(last.value, NextKingdom(KingdomAfter(k, init), last.value))]
         else [])
  }

  /** Every operand investigated successfully is judged once, in order;
      the kingdom of each is its own filesystem, or the one that lets the
      walk cross filesystems (always so when the walk started that way). */
  lemma {:induction false} WalkJudgesEachOperand(k: dev, cases: seq<Option<Accused>>)
    ensures |Walk(k, cases)| == |Present(cases)|
    ensures forall i :: 0 <= i < |Walk(k, cases)| ==> Walk(k, cases)[i].accused == Present(cases)[i]
    ensures forall i :: 0 <= i < |Walk(k, cases)| ==>
      Walk(k, cases)[i].kingdom == ANY_FS || Walk(k, cases)[i].kingdom == Walk(k, cases)[i].accused.fs
    ensures k == ANY_FS ==> KingdomAfter(k, cases) == ANY_FS
    ensures k == ANY_FS ==> forall i :: 0 <= i < |Walk(k, cases)| ==> Walk(k, cases)[i].kingdom == ANY_FS
    decreases |cases|
  {
    if |cases| > 0 {
      WalkJudgesEachOperand(k, cases[..|cases| - 1]);
    }
  }

  /** A directory given as an operand is never passed over as foreign:
      `judge_dir` walks it. */
  lemma OperandIsNeverForeign(l: Law, v: Visit)
    requires v.kingdom == ANY_FS || v.kingdom == v.accused.fs
    requires v.accused.mode.kind == Directory && v.accused.fs != ANY_FS
    ensures forall listing :: JudgeDir(v.accused, l.(kingdom := v.kingdom), listing) == Descended(listing)
  {
  }

  /** What `main` goes on to do. */
  datatype Start =
    | FromStdin(law: Law)                         // judge_stdin
    | FromOperands(law: Law, visits: seq<Visit>)  // the operand loop
    | Ended(status: int)                          // parseopts exited

  /** `main`, from the options to the walk: `operands` are the results of
      `investigate` on the operands, `tmpname` the temporary file's name. */
  function Main(opts: seq<Opt>, operands: seq<Option<Accused>>, tmpname: string): (r: Start)
    ensures ParseOpts(opts).Exit? ==> r == Ended(ParseOpts(opts).status)
    ensures ParseOpts(opts).Proceed? && |operands| == 0 ==>
      r == FromStdin(ParseOpts(opts).law.(tmpname := tmpname))
    ensures ParseOpts(opts).Proceed? && |operands| > 0 ==>
      && r.FromOperands? && r.law == ParseOpts(opts).law.(tmpname := tmpname)
      && |r.visits| == |Present(operands)|
      && (forall i :: 0 <= i < |r.visits| ==> r.visits[i].accused == Present(operands)[i])
      && (forall i :: 0 <= i < |r.visits| ==>
            r.visits[i].kingdom == ANY_FS || r.visits[i].kingdom == r.visits[i].accused.fs)
      && (r.law.kingdom == ANY_FS ==>
            forall i :: 0 <= i < |r.visits| ==> r.visits[i].kingdom == ANY_FS)
  {
    match ParseOpts(opts)
    case Exit(c) => Ended(c)
    case Proceed(l) =>
      var l' := l.(tmpname := tmpname);
      if |operands| == 0 then FromStdin(l')
      else
        WalkJudgesEachOperand(l'.kingdom, operands);
        FromOperands(l', Walk(l'.kingdom, operands))
  }

  /** Without `-m` the kingdom keeps its default, 0. */
  lemma {:induction false} KingdomStaysZero(opts: seq<Opt>)
    requires forall i :: 0 <= i < |opts| ==> opts[i] != ManyFs
    requires ParseOpts(opts).Proceed?
    ensures ParseOpts(opts).law.kingdom == 0
    decreases |opts|
  {
    if |opts| > 0 {
      KingdomStaysZero(opts[..|opts| - 1]);
    }
  }

  /** Names read from standard input are judged under that kingdom 0, so,
      without `-m`, a directory among them that is not on device 0 is
      passed over. */
  lemma StdinSkipsOtherDevices(opts: seq<Opt>, a: Accused, listing: Option<int>)
    requires forall i :: 0 <= i < |opts| ==> opts[i] != ManyFs
    requires ParseOpts(opts).Proceed?
    requires a.mode.kind == Directory && a.fs != 0 && a.fs != ANY_FS
    ensures Judge(a, ParseOpts(opts).law, false, None, listing) == Passed(0)
  {
    KingdomStaysZero(opts);
  }
}

=== FILE: options.dfy ===
/** The command line (main.c): `argtoi` over the C library's `strtol`, and
    `parseopts`, the defaults of the law followed by the effect of each
    option in order. `getopt_long` is not modelled: the options arrive
    decoded, each with its argument text. */
module Options {
  import opened CTypes
  import opened Records

  // ---------------------------------------------------------------------
  // strtol, base 10.

  const LONG_MAX: int := 0x7FFF_FFFF_FFFF_FFFF
  const LONG_MIN: int := -0x8000_0000_0000_0000

  /** The characters `isspace` accepts in the C locale. */
  predicate IsSpace(c: char) {
    c == ' ' || c == '\t' || c == '\n' || c == '\U{B}' || c == '\U{C}' || c == '\r'
  }

  predicate IsDigit(c: char) {
    '0' <= c <= '9'
  }

  predicate AllDigits(s: string) {
    forall i :: 0 <= i < |s| ==> IsDigit(s[i])
  }

  /** How many characters of `s` pass `p` before the first that does not. */
  function Span(s: string, digits: bool): (n: nat)
    ensures n <= |s|
    ensures forall i :: 0 <= i < n ==> (if digits then IsDigit(s[i]) else IsSpace(s[i]))
    ensures n < |s| ==> !(if digits then IsDigit(s[n]) else IsSpace(s[n]))
  {
    if |s| == 0 || !(if digits then IsDigit(s[0]) else IsSpace(s[0])) then 0
    else 1 + Span(s[1..], digits)
  }

  /** The value of a run of decimal digits. */
  function Value(ds: string): nat
    requires AllDigits(ds)
    decreases |ds|
  {
    if |ds| == 0 then 0
    else Value(ds[..|ds| - 1]) * 10 + (ds[|ds| - 1] as int - '0' as int)
  }

  /** A value held to the range of a 64-bit `long`. */
  function Clamp(v: int): (r: int)
    ensures LONG_MIN <= r <= LONG_MAX
    ensures LONG_MIN <= v <= LONG_MAX ==> r == v
  {
    if v > LONG_MAX then LONG_MAX else if v < LONG_MIN then LONG_MIN else v
  }

  /** The run of digits a text starts with, as a value; None without a
      digit. */
  function Unsigned(u: string): (r: Option<nat>)
    ensures r.Some? <==> |u| > 0 && IsDigit(u[0])
  {
    var n := Span(u, true);
    if n == 0 then None else Some(Value(u[..n]))
  }

  /** The number a text starts with: one optional sign, then digits; None
      without a digit. */
  function ReadSigned(t: string): Option<int> {
    if |t| > 0 && (t[0] == '-' || t[0] == '+') then
      match Unsigned(t[1..])
      case None => None
      case Some(v) => Some(Clamp(if t[0] == '-' then -(v as int) else v))
    else
      match Unsigned(t)
      case None => None
      case Some(v) => Some(Clamp(v))
  }

  /** `strtol (s, &endptr, 10)`: None when no digit is consumed (`endptr`
      is left at `s`); otherwise the value, held to the range of a 64-bit
      `long` when it overflows. Leading white space and one sign are
      skipped; whatever follows the digits is ignored. */
  function Strtol(s: string): (r: Option<int>)
    ensures r.Some? ==> LONG_MIN <= r.value <= LONG_MAX
  {
    ReadSigned(s[Span(s, false)..])
  }

  /** The decimal digits of `n`, without leading zeros. */
  function Digits(n: nat): (ds: string)
    ensures |ds| > 0
    decreases n
  {
    if n < 10 then [('0' as int + n) as char]
    else Digits(n / 10) + [('0' as int + n % 10) as char]
  }

  /** How `printf ("%ld")` writes `n`. */
  function Decimal(n: int): string {
    (if n < 0 then "-" else "") + Digits(Abs(n))
  }

  /** Reading the digits of `n` back gives `n`. */
  lemma {:induction false} ValueOfDigits(n: nat)
    ensures AllDigits(Digits(n)) && Value(Digits(n)) == n
    decreases n
  {
    if n >= 10 {
      ValueOfDigits(n / 10);
      var ds := Digits(n);
      assert ds[..|ds| - 1] == Digits(n / 10);
    }
  }

  /** `strtol` reads back what `printf` wrote, whatever text follows it
      as long as that text does not start with a digit. */
  lemma StrtolReadsDecimal(n: int, rest: string)
    requires LONG_MIN <= n <= LONG_MAX
    requires |rest| == 0 || !IsDigit(rest[0])
    ensures Strtol(Decimal(n) + rest) == Some(n)
  {
    var ds := Digits(Abs(n));
    ValueOfDigits(Abs(n));
    var sign := if n < 0 then "-" else "";
    assert Decimal(n) + rest == sign + (ds + rest);
    StrtolReadsRun(n < 0, ds, rest);
  }

  /** A run of digits, signed or not, read by `strtol`. */
  lemma StrtolReadsRun(neg: bool, ds: string, rest: string)
    requires |ds| > 0 && AllDigits(ds)
    requires |rest| == 0 || !IsDigit(rest[0])
    ensures Strtol((if neg then "-" else "") + (ds + rest)) ==
      Some(Clamp(if neg then -(Value(ds) as int) else Value(ds)))
  {
    ReadsRun(ds, rest);
    if neg {
      var t := "-" + (ds + rest);
      assert t[0] == '-';
      NoSpaceToSkip(t);
    } else {
      var t := ds + rest;
      assert t[0] == ds[0];
      NoSpaceToSkip(t);
    }
  }

  /** Without leading white space `strtol` starts at the sign. */
  lemma NoSpaceToSkip(t: string)
    requires |t| > 0 && !IsSpace(t[0])
    ensures Strtol(t) == ReadSigned(t)
  {
    assert t[0..] == t;
  }

  /** A run of digits followed by a text that does not go on with a digit
      reads as the run's value, with or without a minus sign before it. */
  lemma ReadsRun(ds: string, rest: string)
    requires |ds| > 0 && AllDigits(ds)
    requires |rest| == 0 || !IsDigit(rest[0])
    ensures ReadSigned(ds + rest) == Some(Clamp(Value(ds)))
    ensures ReadSigned("-" + (ds + rest)) == Some(Clamp(-(Value(ds) as int)))
  {
    UnsignedRun(ds, rest);
    var u := ds + rest;
    assert u[0] != '-' && u[0] != '+' by {
      assert IsDigit(ds[0]);
    }
    var t := "-" + u;
    assert t[0] == '-' && t[1..] == u;
  }

  /** The digits of a run followed by a non-digit are the run. */
  lemma UnsignedRun(ds: string, rest: string)
    requires |ds| > 0 && AllDigits(ds)
    requires |rest| == 0 || !IsDigit(rest[0])
    ensures Unsigned(ds + rest) == Some(Value(ds))
    ensures (ds + rest)[0] == ds[0]
  {
    SpanOfDigits(ds, rest);
    assert (ds + rest)[..|ds|] == ds;
  }

  /** The digit span of a digit run followed by a non-digit is the run. */
  lemma {:induction false} SpanOfDigits(ds: string, rest: string)
    requires AllDigits(ds)
    requires |rest| == 0 || !IsDigit(rest[0])
    ensures Span(ds + rest, true) == |ds|
    decreases |ds|
  {
    if |ds| > 0 {
      assert (ds + rest)[1..] == ds[1..] + rest;
      SpanOfDigits(ds[1..], rest);
    } else {
      assert ds + rest == rest;
    }
  }

  /** A string with no digit after its white space and sign is not a
      number to `strtol`. */
  lemma NoDigitNoNumber(s: string)
    requires |s| > 0 && !IsDigit(s[0]) && !IsSpace(s[0]) && s[0] != '-' && s[0] != '+'
    ensures Strtol(s) == None
  {
    assert Span(s, false) == 0;
  }

  // ---------------------------------------------------------------------
  // argtoi.

  /** What `argtoi` does with an option's argument: its value, or the
      `error (1, …)` exit. */
  datatype Arg = Accepted(value: uint32) | Rejected

  /** `argtoi` as written: the result of `strtol` is converted to `uint`
      before it is compared with `min`, and the comparison converts `min`
      to `uint` too, so with `min == 0` no number is ever rejected and a
      negative one comes back as a large value. */
  function ArgToIAsWritten(s: string, min: int): (r: Arg)
    ensures r == Rejected <==>
      Strtol(s).None? || ToUInt32(Strtol(s).value) < ToUInt32(min)
    ensures r.Accepted? ==> r.value == ToUInt32(Strtol(s).value)
  {
    match Strtol(s)
    case None => Rejected
    case Some(v) =>
      var res := ToUInt32(v);
      if res < ToUInt32(min) then Rejected else Accepted(res)
  }

  /** `argtoi` as its comment describes it: a number below `min` is
      rejected. */
  function ArgToI(s: string, min: int): (r: Arg)
    ensures r == Rejected <==> Strtol(s).None? || Strtol(s).value < min
    ensures r.Accepted? ==> r.value == ToUInt32(Strtol(s).value)
    ensures r.Accepted? && 0 <= Strtol(s).value < UINT32_MODULUS ==> r.value == Strtol(s).value
  {
    match Strtol(s)
    case None => Rejected
    case Some(v) => if v < min then Rejected else Accepted(ToUInt32(v))
  }

  /** With the bound 0 every call site uses, the program rejects only
      arguments that are not numbers at all. */
  lemma AsWrittenZeroRejectsOnlyNonNumbers(s: string)
    ensures ArgToIAsWritten(s, 0) == Rejected <==> Strtol(s).None?
  {
  }

  /** `--old -1`: the program takes the age limit to be 4294967295 days;
      the check the comment describes refuses it. */
  lemma MinusOneSlipsThrough()
    ensures ArgToIAsWritten("-1", 0) == Accepted(0xFFFF_FFFF)
    ensures ArgToI("-1", 0) == Rejected
  {
    StrtolReadsDecimal(-1, "");
    assert Decimal(-1) + "" == "-1";
  }

  /** Both versions agree on every number a `uint` holds, for every bound
      a `uint` holds: they differ only on negative numbers (and numbers
      past the range of `uint`). */
  lemma ArgToIAgreesInRange(s: string, min: int)
    requires Strtol(s).Some? ==> 0 <= Strtol(s).value < UINT32_MODULUS
    requires 0 <= min < UINT32_MODULUS
    ensures ArgToIAsWritten(s, min) == ArgToI(s, min)
  {
  }

  // ---------------------------------------------------------------------
  // parseopts.

  const DAY: int := 24 * 60 * 60
  const KB: int := 1000
  const MB: int := 1000 * KB

  /** The options, decoded by `getopt_long`; a floating-point argument is
      given as its value, None when it is not a number. */
  datatype Opt =
    | MaxCrumbc(arg: string)        // -c
    | MaxFragc(arg: string)         // -C
    | MaxDeviance(arg: string)      // -d
    | Help                          // -h
    | NoLocks                       // -L
    | ManyFs                        // -m
    | NewAge(arg: string)           // -n, days
    | OldAge(arg: string)           // -o, days
    | Pretend                       // -p
    | Verbose                       // -v
    | CrumbRatio(ratio: Option<real>)   // -r
    | SmallSize(arg: string)        // -s, kB
    | BigSize(arg: string)          // -S, kB
    | SmallTol(tol: Option<real>)   // -t
    | BigTol(tol: Option<real>)     // -T
    | Version                       // -V
    | NoXattr                       // -X
    | Invalid                       // anything getopt_long does not know

  /** Where option parsing leaves the program: a law to apply, or an exit
      with a status (0 after the help or the version, 1 on an error). */
  datatype Parsed = Proceed(law: Law) | Exit(status: int)

  /** The law before any option. */
  const DEFAULT_LAW: Law := Law(
    maxfragc := 21, crumbratio := 0.95 / 100.0, maxcrumbc := 9,
    smallsize := 16 * KB, bigsize := 95 * MB,
    smallsizeTol := 0.1, bigsizeTol := MAX_TOL,
    maxdeviance := MAGICLEAP * 4,
    oldAge := 8 * 31 * DAY, newAge := 1 * 31 * DAY,
    pretend := false, verbosity := 0, locks := true, kingdom := 0, xattr := true,
    tmpname := "")

  /** `argtof`: the value unless it is not a number or is below `min`. */
  function ArgToF(arg: Option<real>, min: int): (r: Option<real>)
    ensures r.Some? <==> arg.Some? && arg.value >= min as real
    ensures r.Some? ==> r == arg
  {
    if arg.Some? && arg.value >= min as real then arg else None
  }

  /** The law a well-ordered parse keeps: the age limit of new files does
      not exceed that of old files, the small size does not exceed the big
      size, and none of them is negative. */
  predicate Ordered(l: Law) {
    0 <= l.newAge <= l.oldAge && 0 <= l.smallsize <= l.bigsize
  }

  /** `-n`: the age of new files, raising that of old files to it if
      needed. */
  function WithNewAge(l: Law, n: int): (r: Law)
    ensures r.newAge == n && r.oldAge == (if n > l.oldAge then n else l.oldAge)
    ensures r == l.(newAge := r.newAge, oldAge := r.oldAge)
    ensures Ordered(l) && n >= 0 ==> Ordered(r)
  {
    l.(newAge := n, oldAge := if n > l.oldAge then n else l.oldAge)
  }

  /** `-o`: the age of old files, lowering that of new files to it if
      needed. */
  function WithOldAge(l: Law, o: int): (r: Law)
    ensures r.oldAge == o && r.newAge == (if o < l.newAge then o else l.newAge)
    ensures r == l.(newAge := r.newAge, oldAge := r.oldAge)
    ensures Ordered(l) && o >= 0 ==> Ordered(r)
  {
    l.(oldAge := o, newAge := if o < l.newAge then o else l.newAge)
  }

  /** `-s`: the small size, raising the big size to it if needed. */
  function WithSmallSize(l: Law, n: int): (r: Law)
    ensures r.smallsize == n && r.bigsize == (if n > l.bigsize then n else l.bigsize)
    ensures r == l.(smallsize := r.smallsize, bigsize := r.bigsize)
    ensures Ordered(l) && n >= 0 ==> Ordered(r)
  {
    l.(smallsize := n, bigsize := if n > l.bigsize then n else l.bigsize)
  }

  /** `-S`: the big size, lowering the small size to it if needed. */
  function WithBigSize(l: Law, n: int): (r: Law)
    ensures r.bigsize == n && r.smallsize == (if n < l.smallsize then n else l.smallsize)
    ensures r == l.(smallsize := r.smallsize, bigsize := r.bigsize)
    ensures Ordered(l) && n >= 0 ==> Ordered(r)
  {
    l.(bigsize := n, smallsize := if n < l.smallsize then n else l.smallsize)
  }

  /** Whether an option takes an integer argument. */
  predicate Numeric(o: Opt) {
    o.MaxCrumbc? || o.MaxFragc? || o.MaxDeviance? || o.NewAge? || o.OldAge? ||
    o.SmallSize? || o.BigSize?
  }

  /** The effect of an integer option whose argument `argtoi` accepted. */
  function ApplyNumber(l: Law, o: Opt, v: uint32): (r: Law)
    requires Numeric(o)
    ensures Ordered(l) ==> Ordered(r)
    ensures o.NewAge? ==> r == WithNewAge(l, DAY * v)
    ensures o.OldAge? ==> r == WithOldAge(l, DAY * v)
    ensures o.SmallSize? ==> r == WithSmallSize(l, KB * v)
    ensures o.BigSize? ==> r == WithBigSize(l, KB * v)
  {
    match o
    case MaxCrumbc(_) => l.(maxcrumbc := v)
    case MaxFragc(_) => l.(maxfragc := v)
    case MaxDeviance(_) => l.(maxdeviance := v)
    case NewAge(_) => WithNewAge(l, DAY * v)
    case OldAge(_) => WithOldAge(l, DAY * v)
    case SmallSize(_) => WithSmallSize(l, KB * v)
    case BigSize(_) => WithBigSize(l, KB * v)
  }

  /** The effect of one option. `argtoi` is the corrected one. */
  function Apply(l: Law, o: Opt): (r: Parsed)
    ensures o == Help || o == Version ==> r == Exit(0)
    ensures o == Invalid ==> r == Exit(1)
    ensures r.Exit? ==> r.status == 0 || r.status == 1
    ensures Ordered(l) && r.Proceed? ==> Ordered(r.law)
    ensures Numeric(o) ==>
      (r.Exit? <==> ArgToI(o.arg, 0) == Rejected) &&
      (r.Proceed? ==> r.law == ApplyNumber(l, o, ArgToI(o.arg, 0).value))
  {
    if Numeric(o) then
      match ArgToI(o.arg, 0)
      case Rejected => Exit(1)
      case Accepted(v) => Proceed(ApplyNumber(l, o, v))
    else
      match o
      case Help => Exit(0)
      case NoLocks => Proceed(l.(locks := false))
      case ManyFs => Proceed(l.(kingdom := ANY_FS))
      case Pretend => Proceed(l.(pretend := true))
      case Verbose => Proceed(l.(verbosity := l.verbosity + 1))
      case CrumbRatio(x) =>
        (match ArgToF(x, 0) case None => Exit(1) case Some(v) => Proceed(l.(crumbratio := v)))
      case SmallTol(x) =>
        (match ArgToF(x, 0) case None => Exit(1) case Some(v) => Proceed(l.(smallsizeTol := v)))
      case BigTol(x) =>
        (match ArgToF(x, 0) case None => Exit(1) case Some(v) => Proceed(l.(bigsizeTol := v)))
      case Version => Exit(0)
      case NoXattr => Proceed(l.(xattr := false))
      case Invalid => Exit(1)
      case _ => Exit(1)
  }

  /** `parseopts`: the defaults, then each option in order; the first exit
      ends the parse. */
  function ParseOpts(opts: seq<Opt>): Parsed
    decreases |opts|
  {
    if |opts| == 0 then Proceed(DEFAULT_LAW)
    else
      match ParseOpts(opts[..|opts| - 1])
      case Exit(c) => Exit(c)
      case Proceed(l) => Apply(l, opts[|opts| - 1])
  }

  /** Whatever the options, a law that comes out of the parse is ordered:
      new files are never older than old ones, small files never bigger
      than big ones. */
  lemma {:induction false} ParsedLawIsOrdered(opts: seq<Opt>)
    requires ParseOpts(opts).Proceed?
    ensures Ordered(ParseOpts(opts).law)
    decreases |opts|
  {
    if |opts| > 0 {
      ParsedLawIsOrdered(opts[..|opts| - 1]);
    }
  }

  /** Without options the law is the default one, and the default is
      ordered. */
  lemma DefaultsAreOrdered()
    ensures ParseOpts([]) == Proceed(DEFAULT_LAW) && Ordered(DEFAULT_LAW)
    ensures DEFAULT_LAW.oldAge == 248 * DAY && DEFAULT_LAW.newAge == 31 * DAY
  {
  }

  /** A parse that meets an exit stops there: later options change
      nothing. */
  lemma {:induction false} ExitIsFinal(opts: seq<Opt>, more: seq<Opt>)
    requires ParseOpts(opts).Exit?
    ensures ParseOpts(opts + more) == ParseOpts(opts)
    decreases |more|
  {
    if |more| > 0 {
      var init := more[..|more| - 1];
      assert (opts + more)[..|opts + more| - 1] == opts + init;
      ExitIsFinal(opts, init);
    } else {
      assert opts + more == opts;
    }
  }
}

=== FILE: ptime.dfy ===
/** The placement time (`set_ptime` / `get_ptime`, linux.c): the moment a
    file was last rewritten, kept in its `shake.ptime` extended attribute as
    a 4-byte big-endian `uint32_t` count of seconds. */
module Ptime {
  import opened CTypes

  const DATE_SIZE: nat := 4

  /** The attribute value `set_ptime` stores at time `now`: `htonl` of the
      time truncated to 32 bits. */
  function SetPtime(now: int): (v: seq<byte>)
    ensures |v| == DATE_SIZE
    ensures DecodeDate(v) == ToUInt32(now)
  {
    var d := ToUInt32(now);
    var v: seq<byte> := [d / 0x100_0000, (d % 0x100_0000) / 0x1_0000, (d % 0x1_0000) / 0x100, d % 0x100];
    SplitDate(d);
    v
  }

  lemma SplitDate(d: uint32)
    ensures d == (((d / 0x100_0000) * 0x100 + (d % 0x100_0000) / 0x1_0000) * 0x100
                  + (d % 0x1_0000) / 0x100) * 0x100 + d % 0x100
  {
    var r0 := d % 0x100_0000;
    var r1 := r0 % 0x1_0000;
    ModOfMod(d, 0x1_0000, 0x100);
    ModOfMod(d, 0x100, 0x1_0000);
    ModOfMod(r0, 0x100, 0x100);
    assert d == (d / 0x100_0000) * 0x100_0000 + r0;
    assert r0 == (r0 / 0x1_0000) * 0x1_0000 + r1;
    assert r1 == (r1 / 0x100) * 0x100 + r1 % 0x100;
  }

  /** Reducing modulo a multiple of `m` keeps the remainder modulo `m`. */
  lemma ModOfMod(x: int, m: int, k: int)
    requires m > 0 && k > 0
    ensures (x % (m * k)) % m == x % m
  {
    var r := x % (m * k);
    assert x == (x / (m * k) * k + r / m) * m + r % m;
    DivModUnique(x / (m * k) * k + r / m, r % m, m);
  }

  /** `ntohl` of a 4-byte value. */
  function DecodeDate(v: seq<byte>): uint32
    requires |v| == DATE_SIZE
  {
    ((v[0] as int * 0x100 + v[1]) * 0x100 + v[2]) * 0x100 + v[3]
  }

  /** `get_ptime`: `stored` is the attribute as `attr_getf` finds it (None
      when the read fails). A value longer than the 4-byte buffer makes the
      read fail; a date later than `now` is refused. -1 means no usable
      placement time. */
  function GetPtime(stored: Option<seq<byte>>, now: int): (t: int)
    requires stored.Some? ==> |stored.value| >= DATE_SIZE
    ensures t == -1 || 0 <= t <= now
    ensures stored.None? ==> t == -1
    ensures stored.Some? && |stored.value| == DATE_SIZE ==>
      (t == -1 <==> DecodeDate(stored.value) > now)
    ensures t != -1 ==> stored.Some? && |stored.value| == DATE_SIZE && t == DecodeDate(stored.value)
  {
    match stored
    case None => -1
    case Some(v) =>
      if |v| > DATE_SIZE then -1
      else if DecodeDate(v) > now then -1
      else DecodeDate(v)
  }

  /** Decoding undoes encoding for every 4-byte value. */
  lemma EncodeDecode(v: seq<byte>)
    requires |v| == DATE_SIZE
    ensures SetPtime(DecodeDate(v)) == v
  {
    var d := DecodeDate(v);
    var low3 := (v[1] as int * 0x100 + v[2]) * 0x100 + v[3];
    var low2 := v[2] as int * 0x100 + v[3];
    assert d == v[0] as int * 0x100_0000 + low3;
    DivModUnique(v[0], low3, 0x100_0000);
    assert low3 == v[1] as int * 0x1_0000 + low2;
    DivModUnique(v[1], low2, 0x1_0000);
    assert d == (v[0] as int * 0x100 + v[1]) * 0x1_0000 + low2;
    DivModUnique(v[0] as int * 0x100 + v[1], low2, 0x1_0000);
    DivModUnique(v[2], v[3], 0x100);
    assert d == ((v[0] as int * 0x100 + v[1]) * 0x100 + v[2]) * 0x100 + v[3];
    DivModUnique((v[0] as int * 0x100 + v[1]) * 0x100 + v[2], v[3], 0x100);
  }

  /** A placement time stored before `now`, and before the 32-bit counter
      wraps in 2106, reads back as itself. */
  lemma PtimeRoundTrip(then_: int, now: int)
    requires 0 <= then_ < UINT32_MODULUS
    requires then_ <= now
    ensures GetPtime(Some(SetPtime(then_)), now) == then_
  {
  }

  /** After 2106 the stored time wraps: a file placed at `then_` reads back
      as placed 2^32 seconds earlier, so its age looks 136 years larger. */
  lemma PtimeWrapsAfter2106(then_: int, now: int)
    requires UINT32_MODULUS <= then_ < 2 * UINT32_MODULUS
    requires then_ <= now
    ensures GetPtime(Some(SetPtime(then_)), now) == then_ - UINT32_MODULUS
  {
  }
}

=== FILE: records.dfy ===
/** The constants and the two records every part of the program shares: the
    `law` (the policy given on the command line) and the `accused` (one file
    or directory under examination). */
module Records {
  import opened CTypes

  /** Distance in bytes beyond which two blocks belong to different fragments. */
  const MAGICLEAP: int := 2 * 32 * 1024

  /** Seconds within which two files count as used together. */
  const MAGICTIME: int := 8

  /** The tolerance that exempts a file from ever being rewritten. */
  const MAX_TOL: real := -1.0

  /** `(dev_t) -1`: the kingdom value that lets the walk cross filesystems. */
  const ANY_FS: int := 0xFFFF_FFFF_FFFF_FFFF

  type dev = x: int | 0 <= x <= 0xFFFF_FFFF_FFFF_FFFF

  /** The file type bits of `st_mode`. */
  datatype Kind = Regular | Directory | Symlink | OtherKind

  /** A whole `st_mode`: the file type and the permission bits. */
  datatype Mode = Mode(kind: Kind, perm: nat)

  /** The fields of a `struct stat` the program reads. */
  datatype Stat = Stat(dev: dev, ino: nat, mode: Mode, blocks: nat,
                       atime: int, mtime: int, ctime: int)

  /** The optional fragment log: positions and sizes of the fragments, both
      closed by a -1 entry. */
  datatype FragLog = FragLog(pos: seq<int>, sizes: seq<int>)

  /** The policy. Sizes are in bytes and ages in seconds; tolerances and the
      crumb ratio are `double` in the program and exact reals here. */
  datatype Law = Law(
    maxfragc: uint32,
    crumbratio: real,
    maxcrumbc: uint32,
    smallsize: int,
    bigsize: int,
    smallsizeTol: real,
    bigsizeTol: real,
    maxdeviance: uint32,
    oldAge: int,
    newAge: int,
    pretend: bool,
    verbosity: int,
    locks: bool,
    kingdom: dev,
    xattr: bool,
    tmpname: string)

  /** One file or directory under examination, with the fields in the order
      the program fills them. `open` stands for `fd != -1`. */
  datatype Accused = Accused(
    mode: Mode,
    name: string,
    open: bool,
    size: int,
    blocks: int,
    fragc: nat,
    crumbc: nat,
    start: int,
    end: int,
    ideal: int,
    atime: int,
    mtime: int,
    age: int,
    log: Option<FragLog>,
    fs: dev,
    guilty: bool)
}

=== FILE: shake.dfy ===
/** `shake_reg`, `capture` and `release` (executive.c): the rewrite of one
    guilty regular file. The file is copied to the temporary file, then,
    in the critical signal mode, truncated to nothing and copied back, so
    that the filesystem lays it out afresh; finally its times are put back.

    The disk is the file's contents and times, its placement attribute, the
    temporary file and the signal state. Which system calls fail is an
    input, `Mishaps`. */
module Shake {
  import opened CTypes
  import opened Records
  import opened Files
  import opened Copy
  import opened Signals
  import opened Ptime

  /** The gap of the copy back: holes for zero runs of 4 * MAGICLEAP bytes. */
  const GAP: nat := 4 * MAGICLEAP

  /** What `shake_reg` can touch. `tmp` is None once the temporary file
      has been unlinked. */
  datatype Disk = Disk(
    file: File,
    atime: int,
    mtime: int,
    ptime: Option<seq<byte>>,
    tmp: Option<File>,
    sig: SigState)

  /** The calls that fail: `set_ptime`, `asprintf`, the system calls of
      the backup copy and of the copy back (numbered as `fcopy` numbers
      them), and `ftruncate`. */
  datatype Mishaps = Mishaps(
    ptimeFails: bool,
    asprintfFails: bool,
    backup: set<nat>,
    truncateFails: bool,
    restore: set<nat>)

  /** How `shake_reg` ends: it returns, `error (1, …)` ends the program
      with a message, or an assertion (or a division by zero) crashes it. */
  datatype Outcome =
    | Returned(code: int)
    | Exited(why: Failure)
    | Crashed

  /** The three `error (1, …)` exits of `shake_reg`. */
  datatype Failure = BackupFailed | TruncateFailed | RestoreFailed

  /** The message of each exit; the last two name the backup. */
  function Message(why: Failure, name: string, tmpname: string): string {
    match why
    case BackupFailed => name + ": temporary copy failed"
    case TruncateFailed => name + ": failed to ftruncate() ! file have been saved at " + tmpname
    case RestoreFailed => name + ": restore failed ! file have been saved at " + tmpname
  }

  /** The message the critical mode ends the program with. */
  function CriticalNote(name: string, tmpname: string): string {
    name + ": unrecoverable internal error ! file has been saved at " + tmpname
  }

  /** `capture`: marks the file with the current time, unless the law
      disables the attribute; a failure only warns. */
  function Capture(d: Disk, l: Law, now: int, fails: bool): (d': Disk)
    ensures l.xattr && !fails ==> d'.ptime == Some(SetPtime(now))
    ensures !l.xattr || fails ==> d'.ptime == d.ptime
    ensures d' == d.(ptime := d'.ptime)
  {
    if l.xattr && !fails then d.(ptime := Some(SetPtime(now))) else d
  }

  /** `release`: puts back the access and modification times recorded by
      the investigation (a failure of `futimes` is ignored). */
  function Release(d: Disk, a: Accused): (d': Disk)
    ensures d'.atime == a.atime && d'.mtime == a.mtime
    ensures d' == d.(atime := d'.atime, mtime := d'.mtime)
  {
    d.(atime := a.atime, mtime := a.mtime)
  }

  /** A shaken file read back at `now`, before 2106, gives `now` as its
      placement time. */
  lemma CaptureIsReadBack(d: Disk, l: Law, now: int)
    requires l.xattr && 0 <= now < UINT32_MODULUS
    ensures GetPtime(Capture(d, l, now, false).ptime, now) == now
  {
    PtimeRoundTrip(now, now);
  }

  /** The critical section of `shake_reg`: with the backup made and its
      message at hand, block the signals, truncate the file, copy the
      backup over it, unblock the signals and put the times back. */
  method Rewrite(a: Accused, d: Disk, now: int, fileBlock: int, truncateFails: bool,
                 faults: set<nat>, msg: string)
    returns (out: Outcome, d': Disk)
    requires Valid(d.file) && d.tmp.Some?
    ensures d'.tmp == d.tmp && d'.ptime == d.ptime
    ensures out.Returned? ==>
      && out.code == 0 && d'.file.bytes == d.tmp.value.bytes
      && d'.atime == a.atime && d'.mtime == a.mtime
      && !d'.sig.critical && d'.sig.blocked == {}
    ensures !out.Returned? ==> d'.sig.critical && d'.sig.msg == Some(msg)
    ensures out.Exited? ==> out.why != BackupFailed
    ensures !truncateFails && faults == {} && Sizing(GAP, fileBlock) ==> out == Returned(0)
  {
    d' := d.(sig := Restrict(d.sig, Some(msg)).value);
    if truncateFails {
      return Exited(TruncateFailed), d';
    }
    d' := d'.(file := File([], {}), mtime := now);
    // fcopy(l->tmpfd, a->fd, GAP)
    var r, file, crashed := CheckedCopy(d.tmp.value.bytes, d'.file, GAP, fileBlock, faults);
    d' := d'.(file := file);
    if crashed {
      return Crashed, d';
    }
    if r == -1 {
      return Exited(RestoreFailed), d';
    }
    d' := Release(d'.(sig := Restore(d'.sig)), a);
    out := Returned(0);
  }

  /** `shake_reg`. `now` is the clock; `tmpBlock` and `fileBlock` are what
      FIGETBSZ answers for the temporary file and for the file. */
  method ShakeReg(a: Accused, l: Law, d: Disk, now: int, tmpBlock: int, fileBlock: int,
                  m: Mishaps)
    returns (out: Outcome, d': Disk)
    requires a.mode.kind == Regular && a.guilty
    requires Valid(d.file) && d.tmp.Some? && Valid(d.tmp.value)
    // with `pretend`, nothing is touched
    ensures l.pretend ==> out == Returned(0) && d' == d
    // a return leaves the contents as they were, the times restored and the
    // signals back in the normal mode
    ensures out.Returned? ==> out.code == 0 && d'.file.bytes == d.file.bytes
    ensures out.Returned? && !l.pretend ==>
      && d'.atime == a.atime && d'.mtime == a.mtime
      && !d'.sig.critical && d'.sig.blocked == {}
    // the contents are lost only once the backup holds them, in the
    // critical mode, with its message naming the backup
    ensures d'.file.bytes != d.file.bytes ==>
      && d'.tmp.Some? && d'.tmp.value.bytes == d.file.bytes
      && d'.sig.critical && d'.sig.msg == Some(CriticalNote(a.name, l.tmpname))
      && !out.Returned?
    // a failed backup removes the temporary file and leaves the file alone
    ensures out == Exited(BackupFailed) ==>
      d'.tmp.None? && d'.file == d.file && d'.sig == d.sig
    // without a message for the critical mode the assertion of
    // restrict_signals stops the program before the file is touched
    ensures !l.pretend && m.asprintfFails ==> out == Crashed && d'.file == d.file
    // when no call fails and the block sizes suit fcopy, the file is shaken
    ensures !m.asprintfFails && !m.truncateFails && m.backup == {} && m.restore == {}
            && Sizing(MAGICLEAP, tmpBlock) && Sizing(GAP, fileBlock) ==>
      out == Returned(0)
    ensures !l.pretend ==> d'.ptime == Capture(d, l, now, m.ptimeFails).ptime
  {
    d' := d;
    if l.pretend {
      return Returned(0), d';
    }
    d' := Capture(d', l, now, m.ptimeFails);
    if m.asprintfFails {
      // restrict_signals(NULL): its assertion fails
      return Crashed, d';
    }
    var msg := CriticalNote(a.name, l.tmpname);
    // fcopy(a->fd, l->tmpfd, MAGICLEAP)
    var r, tmp, crashed := CheckedCopy(d.file.bytes, d.tmp.value, MAGICLEAP, tmpBlock, m.backup);
    d' := d'.(tmp := Some(tmp));
    if crashed {
      return Crashed, d';
    }
    if r == -1 {
      // unlink(l->tmpname), then error(1, …)
      d' := d'.(tmp := None);
      return Exited(BackupFailed), d';
    }
    out, d' := Rewrite(a, d', now, fileBlock, m.truncateFails, m.restore, msg);
  }
}

=== FILE: signals.dfy ===
/** signals.c: the two modes in which the program handles signals. In the
    normal mode a signal removes the temporary file and then takes its
    default effect; in the critical mode, while the temporary file is the
    only copy of a file, most signals are blocked and those raised by
    internal errors end the program with a message naming that copy.

    Only the program's own state is modelled: the mode, the message, the
    temporary file name, the signals its handler is installed for and the
    signals it asked to block. Delivery is a decision over that state. */
module Signals {
  import opened CTypes

  /** The signals the program names, and every other one. */
  datatype Signal =
    | SIGHUP | SIGINT | SIGQUIT | SIGILL | SIGFPE | SIGKILL | SIGSEGV | SIGPIPE
    | SIGTERM | SIGUSR1 | SIGUSR2 | SIGBUS | SIGXCPU | SIGXFSZ | SIGTSTP | SIGSTOP
    | OtherSignal

  /** The signals `install_sighandler` asks to install the handler for.
      The request for SIGKILL fails with EINVAL (its result is ignored), so
      the handler really serves the other thirteen; delivery gives SIGKILL
      its default effect before looking at this set. */
  const HANDLED: set<Signal> :=
    {SIGFPE, SIGHUP, SIGILL, SIGINT, SIGKILL, SIGPIPE, SIGQUIT, SIGSEGV, SIGTERM,
     SIGUSR1, SIGUSR2, SIGBUS, SIGXCPU, SIGXFSZ}

  /** Every signal. */
  const ALL: set<Signal> := HANDLED + {SIGTSTP, SIGSTOP, OtherSignal}

  /** ALL lists every signal. */
  lemma AllIsEvery()
    ensures forall sig: Signal :: sig in ALL
  {
    forall sig: Signal
      ensures sig in ALL
    {
      match sig
      case OtherSignal =>
      case SIGTSTP =>
      case SIGSTOP =>
      case _ => assert sig in HANDLED;
    }
  }

  /** The signals the critical mode leaves deliverable: those raised by
      internal errors, and stop and suspend. */
  const LEFT_OPEN: set<Signal> := {SIGILL, SIGFPE, SIGSEGV, SIGTSTP, SIGSTOP}

  /** The signals the system lets no program catch or block. */
  const UNCATCHABLE: set<Signal> := {SIGKILL, SIGSTOP}

  /** The file-scope state of signals.c plus the signal mask and the
      installed handlers. */
  datatype SigState = SigState(
    critical: bool,             // critical_mode
    msg: Option<string>,        // current_msg
    tempfile: Option<string>,   // current_tempfile
    handled: set<Signal>,       // signals whose handler is handle_signals
    blocked: set<Signal>)       // signals the mask asks to block

  /** The state at program start: normal mode, nothing set. */
  const INIT: SigState := SigState(false, None, None, {}, {})

  /** `install_sighandler`: records the temporary file and installs the
      handler, to be reset to the default after its first use. */
  function Install(s: SigState, tempfile: string): (r: SigState)
    ensures r.tempfile == Some(tempfile)
    ensures forall sig :: sig in r.handled <==> sig in s.handled || sig in HANDLED
    ensures r.critical == s.critical && r.msg == s.msg && r.blocked == s.blocked
  {
    s.(tempfile := Some(tempfile), handled := s.handled + HANDLED)
  }

  /** `restrict_signals`: enters the critical mode with `msg`, blocking
      every signal but those left open. A missing message (NULL) fails the
      assertion that opens the function: None. */
  function Restrict(s: SigState, msg: Option<string>): (r: Option<SigState>)
    ensures r.Some? <==> msg.Some?
    ensures r.Some? ==> r.value.critical && r.value.msg == msg
    ensures r.Some? ==> forall sig :: sig in r.value.blocked <==> sig in s.blocked || sig !in LEFT_OPEN
    ensures r.Some? ==> r.value.tempfile == s.tempfile && r.value.handled == s.handled
  {
    if msg.None? then None
    else
      AllIsEvery();
      Some(s.(critical := true, msg := msg, blocked := s.blocked + (ALL - LEFT_OPEN)))
  }

  /** `restore_signals`: back to the normal mode, nothing blocked. */
  function Restore(s: SigState): (r: SigState)
    ensures !r.critical && r.msg.None? && r.blocked == {}
    ensures r.tempfile == s.tempfile && r.handled == s.handled
  {
    s.(critical := false, msg := None, blocked := {})
  }

  /** A critical section leaves no trace once it is over. */
  lemma RestoreUndoesRestrict(s: SigState, msg: string)
    ensures Restrict(s, Some(msg)).Some?
    ensures Restore(Restrict(s, Some(msg)).value) == Restore(s)
  {
  }

  /** What happens when a signal arrives. */
  datatype Reaction =
    | Pending                       // blocked: it waits
    | DefaultAction                 // the system's default for the signal
    | ExitWith(message: string)     // critical mode: error(1, 0, current_msg)
    | UnlinkAndRaise(path: string)  // normal mode: unlink, then the default
    | AssertionFails                // the handler's assertion on its string fails

  /** The arrival of `sig`: its reaction and the state after it (the
      handler is reset to the default once used). */
  function Deliver(s: SigState, sig: Signal): (r: (Reaction, SigState))
    ensures sig in UNCATCHABLE ==> r.0 == DefaultAction
    ensures r.0.ExitWith? ==> s.critical && s.msg == Some(r.0.message)
    ensures r.0.UnlinkAndRaise? ==> !s.critical && s.tempfile == Some(r.0.path)
    ensures r.0.AssertionFails? ==>
      sig in s.handled && (if s.critical then s.msg.None? else s.tempfile.None?)
    ensures r.0 == Pending <==> sig !in UNCATCHABLE && sig in s.blocked
    ensures (r.0.ExitWith? || r.0.UnlinkAndRaise? || r.0.AssertionFails?) <==>
      sig !in UNCATCHABLE && sig !in s.blocked && sig in s.handled
    ensures r.1.handled == s.handled - (if r.0 == Pending then {} else {sig})
    ensures r.1 == s.(handled := r.1.handled)
  {
    if sig in UNCATCHABLE then (DefaultAction, s.(handled := s.handled - {sig}))
    else if sig in s.blocked then (Pending, s)
    else if sig !in s.handled then (DefaultAction, s.(handled := s.handled - {sig}))
    else
      var s' := s.(handled := s.handled - {sig});
      if s.critical then
        (if s.msg.Some? then ExitWith(s.msg.value) else AssertionFails, s')
      else
        (if s.tempfile.Some? then UnlinkAndRaise(s.tempfile.value) else AssertionFails, s')
  }

  // ---------------------------------------------------------------------
  // Runs of mode switches.

  /** The calls that change the state. */
  datatype Event =
    | InstallEvent(tempfile: string)
    | RestrictEvent(msg: Option<string>)
    | RestoreEvent

  /** The state after `events` from INIT; None once an assertion fails. */
  function Run(events: seq<Event>): Option<SigState>
    decreases |events|
  {
    if |events| == 0 then Some(INIT)
    else
      match Run(events[..|events| - 1])
      case None => None
      case Some(s) =>
        match events[|events| - 1]
        case InstallEvent(t) => Some(Install(s, t))
        case RestrictEvent(m) => Restrict(s, m)
        case RestoreEvent => Some(Restore(s))
  }

  /** What every reachable state satisfies: the mode and the message go
      together, the critical mode blocks all but the signals left open,
      the normal mode blocks nothing, and the handler covers exactly the
      installed signals. */
  predicate Coherent(s: SigState) {
    && (s.critical <==> s.msg.Some?)
    && (s.critical ==> ALL - LEFT_OPEN <= s.blocked)
    && (!s.critical ==> s.blocked == {})
    && (s.handled == {} || s.handled == HANDLED)
    && (s.handled == HANDLED <==> s.tempfile.Some?)
  }

  /** Every run that gets through its assertions ends in a coherent state. */
  lemma {:induction false} RunIsCoherent(events: seq<Event>)
    requires Run(events).Some?
    ensures Coherent(Run(events).value)
    decreases |events|
  {
    if |events| > 0 {
      RunIsCoherent(events[..|events| - 1]);
    }
  }

  /** In a coherent state whose temporary file is known, the handler's
      assertions always hold, the temporary file is never removed in the
      critical mode, and in that mode the handler only runs for the
      signals raised by internal errors. */
  lemma HandlerIsSafe(s: SigState, sig: Signal)
    requires Coherent(s) && s.tempfile.Some?
    ensures Deliver(s, sig).0 != AssertionFails
    ensures s.critical ==> !Deliver(s, sig).0.UnlinkAndRaise?
    ensures s.critical && Deliver(s, sig).0.ExitWith? ==> sig in {SIGILL, SIGFPE, SIGSEGV}
  {
    if s.critical && sig !in {SIGILL, SIGFPE, SIGSEGV, SIGTSTP, SIGSTOP} {
      assert sig in ALL - LEFT_OPEN;
    }
  }

  /** Once the handler is installed, no run of mode switches with a
      message for every critical section fails an assertion, and the
      handler never does either. */
  lemma {:induction false} InstalledRunsAreSafe(t: string, events: seq<Event>, sig: Signal)
    requires forall i :: 0 <= i < |events| ==> events[i] != RestrictEvent(None)
    ensures Run([InstallEvent(t)] + events).Some?
    ensures Run([InstallEvent(t)] + events).value.tempfile.Some?
    ensures Deliver(Run([InstallEvent(t)] + events).value, sig).0 != AssertionFails
    decreases |events|
  {
    var all := [InstallEvent(t)] + events;
    if |events| == 0 {
      assert all[..0] == [];
    } else {
      var init := events[..|events| - 1];
      assert all[..|all| - 1] == [InstallEvent(t)] + init;
      InstalledRunsAreSafe(t, init, sig);
      assert all[|all| - 1] == events[|events| - 1];
    }
    RunIsCoherent(all);
    HandlerIsSafe(Run(all).value, sig);
  }
}

=== FILE: testimony.dfy ===
/** The extent inspector (`get_testimony`, linux.c): a walk over the physical
    position of every logical block of a file, as FIBMAP reports it, counting
    fragments and crumbs and noting where the file starts and ends on disk. */
module Testimony {
  import opened CTypes
  import opened Records

  /** FIBMAP's answer for one logical block: its physical block number, or a
      failed ioctl. */
  datatype Fibmap = Mapped(block: int) | MapFailed

  /** The parameters of one walk: the filesystem block size, the crumb
      threshold in bytes, and whether fragment logs are kept (verbosity 3). */
  datatype Geometry = Geometry(physbsize: int, crumbsize: int, logging: bool)

  /** What the block loop carries from one block to the next. `physpos` is
      the previous block's byte position; `poslog` holds the position of
      every fragment opened so far and `sizelog` the size of every fragment
      closed so far. */
  datatype Tally = Tally(physpos: int, fragsize: uint32, start: int, end: int,
                         fragc: nat, crumbc: nat,
                         poslog: seq<int>, sizelog: seq<int>)

  /** The result: `blocks` is the size in physical blocks, `start` and `end`
      the byte positions of the first and last allocated block (0 if none). */
  datatype Report = Report(blocks: int, fragc: nat, crumbc: nat,
                           start: int, end: int, log: Option<FragLog>)

  /** The tally before the first block: every counter of a fresh accused is 0. */
  const Fresh: Tally := Tally(0, 0, 0, 0, 0, 0, [], [])

  /** The byte position of a block: its number times the block size, where a
      negative product (a reiser4 bug) is clamped to 0; 0 means a hole. */
  function PhysPos(block: int, physbsize: int): int {
    var p := block * physbsize;
    if p < 0 then 0 else p
  }

  /** One turn of the block loop for a block at byte position `p`. */
  function Step(t: Tally, p: int, g: Geometry): Tally {
    var grown := ToUInt32(t.fragsize + g.physbsize);
    if p == 0 then
      t.(physpos := 0, fragsize := grown)
    else
      var start := if t.start == 0 then p else t.start;
      if Abs(p - t.physpos) > MAGICLEAP then
        var crumb := t.fragsize != 0 && t.fragsize < ToUInt32(g.crumbsize);
        Tally(p, ToUInt32(g.physbsize), start, p, t.fragc + 1,
              if crumb then t.crumbc + 1 else t.crumbc,
              if g.logging then t.poslog + [p] else t.poslog,
              if g.logging && |t.poslog| > 0 then t.sizelog + [t.fragsize] else t.sizelog)
      else
        t.(physpos := p, fragsize := grown, start := start, end := p)
  }

  /** The block loop over the byte positions `ps` of the blocks, in order. */
  function Scan(ps: seq<int>, g: Geometry): Tally
    decreases |ps|
  {
    if |ps| == 0 then Fresh else Step(Scan(ps[..|ps| - 1], g), ps[|ps| - 1], g)
  }

  // ---------------------------------------------------------------------
  // Reference definitions, stated on the positions alone.

  /** Block `i` opens a new fragment: it is allocated and lies more than
      MAGICLEAP away from the block before it (position 0 before the first
      block, and also after a hole). */
  predicate IsBreak(ps: seq<int>, i: int)
    requires 0 <= i < |ps|
  {
    ps[i] != 0 && Abs(ps[i] - (if i == 0 then 0 else ps[i - 1])) > MAGICLEAP
  }

  /** The positions of the blocks that open a fragment, in file order. */
  function Breaks(ps: seq<int>): seq<int>
    decreases |ps|
  {
    if |ps| == 0 then []
    else Breaks(ps[..|ps| - 1]) + (if IsBreak(ps, |ps| - 1) then [ps[|ps| - 1]] else [])
  }

  /** The number of blocks since the last fragment opened, that block
      included, or all the blocks if none has. */
  function SinceBreak(ps: seq<int>): nat
    decreases |ps|
  {
    if |ps| == 0 then 0
    else if IsBreak(ps, |ps| - 1) then 1
    else SinceBreak(ps[..|ps| - 1]) + 1
  }

  // ---------------------------------------------------------------------
  // What the walk computes.

  /** The loop keeps the previous block's position, holes included. */
  lemma {:induction false} ScanRemembersLastBlock(ps: seq<int>, g: Geometry)
    ensures Scan(ps, g).physpos == (if |ps| == 0 then 0 else ps[|ps| - 1])
  {
    if |ps| > 0 {
      ScanRemembersLastBlock(ps[..|ps| - 1], g);
    }
  }

  /** One fragment is counted, and logged when logging, exactly at every
      block that opens one. */
  lemma {:induction false} FragmentsAreBreaks(ps: seq<int>, g: Geometry)
    ensures Scan(ps, g).fragc == |Breaks(ps)|
    ensures g.logging ==> Scan(ps, g).poslog == Breaks(ps)
    ensures !g.logging ==> Scan(ps, g).poslog == [] && Scan(ps, g).sizelog == []
    ensures g.logging ==> |Scan(ps, g).sizelog| == if |Breaks(ps)| == 0 then 0 else |Breaks(ps)| - 1
  {
    if |ps| > 0 {
      var init := ps[..|ps| - 1];
      FragmentsAreBreaks(init, g);
      ScanRemembersLastBlock(init, g);
      if |ps| > 1 {
        assert init[|init| - 1] == ps[|ps| - 2];
      }
    }
  }

  /** A crumb is counted only when a fragment opens, so crumbs never
      outnumber fragments; with a zero threshold no stretch is small enough
      to be one; and for a real block size the crumbs are exactly the
      small closed stretches of `Crumbs`. */
  lemma {:induction false} CrumbsAtMostFragments(ps: seq<int>, g: Geometry)
    ensures Scan(ps, g).crumbc <= Scan(ps, g).fragc
    ensures g.crumbsize == 0 ==> Scan(ps, g).crumbc == 0
    ensures g.physbsize > 0 ==> Scan(ps, g).crumbc == Crumbs(ps, g.physbsize, g.crumbsize)
  {
    if |ps| > 0 {
      CrumbsAtMostFragments(ps[..|ps| - 1], g);
    }
    if g.physbsize > 0 {
      CrumbsAreSmallClosings(ps, g);
    }
  }

  /** The fragments closed as crumbs: at every block that opens a fragment,
      the stretch it closes (all the blocks since the previous opening,
      holes included, or since the start of the file) is counted when its
      size in bytes, as an `uint`, is nonzero and under the threshold `c`
      read as an `uint`. */
  function Crumbs(ps: seq<int>, b: int, c: int): nat
    decreases |ps|
  {
    if |ps| == 0 then 0
    else
      var init := ps[..|ps| - 1];
      var closed := ToUInt32(b * SinceBreak(init));
      Crumbs(init, b, c) + (if IsBreak(ps, |ps| - 1) && 0 < closed < ToUInt32(c) then 1 else 0)
  }

  /** A crumb is counted exactly when a fragment opens and the stretch it
      closes is small enough. */
  lemma {:induction false} CrumbsAreSmallClosings(ps: seq<int>, g: Geometry)
    requires g.physbsize > 0
    ensures Scan(ps, g).crumbc == Crumbs(ps, g.physbsize, g.crumbsize)
  {
    if |ps| > 0 {
      var init := ps[..|ps| - 1];
      CrumbsAreSmallClosings(init, g);
      FragmentSizeSinceBreak(init, g);
      assert Scan(init, g).physpos == (if |init| == 0 then 0 else ps[|ps| - 2]) by {
        ScanRemembersLastBlock(init, g);
        if |ps| > 1 {
          assert init[|init| - 1] == ps[|ps| - 2];
        }
      }
    }
  }

  /** A file that starts with `k` holes before its first allocated block
      counts those holes as a closed fragment: a crumb when their size is
      under the threshold. */
  lemma LeadingHolesMakeACrumb(k: nat, p: int, g: Geometry)
    requires k > 0 && p > MAGICLEAP && g.physbsize > 0
    requires 0 < ToUInt32(g.physbsize * k) < ToUInt32(g.crumbsize)
    ensures Scan(Holes(k) + [p], g).fragc == 1
    ensures Scan(Holes(k) + [p], g).crumbc == 1
  {
    var ps := Holes(k) + [p];
    assert ps[..|ps| - 1] == Holes(k);
    HolesOnly(k);
    FragmentsAreBreaks(ps, g);
    CrumbsAreSmallClosings(ps, g);
  }

  /** The positions of `k` holes. */
  function Holes(k: nat): (z: seq<int>)
    ensures |z| == k && forall i :: 0 <= i < k ==> z[i] == 0
  {
    seq(k, i => 0)
  }

  /** A run of holes opens no fragment and leaves every block since the
      start unclosed. */
  lemma {:induction false} HolesOnly(k: nat)
    ensures Breaks(Holes(k)) == [] && SinceBreak(Holes(k)) == k
    ensures forall b, c :: Crumbs(Holes(k), b, c) == 0
  {
    if k > 0 {
      assert Holes(k)[..k - 1] == Holes(k - 1);
      HolesOnly(k - 1);
    }
  }

  /** The fragment size grows by one block for every block, holes included,
      and restarts at each new fragment; it is an `uint`, so it wraps. */
  lemma {:induction false} FragmentSizeSinceBreak(ps: seq<int>, g: Geometry)
    requires g.physbsize > 0
    ensures Scan(ps, g).fragsize == ToUInt32(g.physbsize * SinceBreak(ps))
  {
    if |ps| > 0 {
      var init := ps[..|ps| - 1];
      FragmentSizeSinceBreak(init, g);
      var t0 := Scan(init, g);
      assert t0.physpos == (if |init| == 0 then 0 else ps[|ps| - 2]) by {
        ScanRemembersLastBlock(init, g);
        if |ps| > 1 {
          assert init[|init| - 1] == ps[|ps| - 2];
        }
      }
      var b := g.physbsize;
      if IsBreak(ps, |ps| - 1) {
        assert SinceBreak(ps) == 1;
        assert Scan(ps, g).fragsize == ToUInt32(b);
        assert b * SinceBreak(ps) == b;
      } else {
        var k := SinceBreak(init);
        assert SinceBreak(ps) == k + 1;
        assert Scan(ps, g).fragsize == ToUInt32(t0.fragsize + b);
        WrapStep(b, k, t0.fragsize);
      }
    }
  }

  /** One more block on a wrapped fragment size. */
  lemma WrapStep(b: int, k: int, f: int)
    requires f == ToUInt32(b * k)
    ensures ToUInt32(f + b) == ToUInt32(b * (k + 1))
  {
    var a := b * k;
    MulSucc(b, k);
    ModAddition(a, b);
  }

  lemma ModAddition(a: int, b: int)
    ensures (a % UINT32_MODULUS + b) % UINT32_MODULUS == (a + b) % UINT32_MODULUS
  {
  }

  /** How one more block moves `start`. */
  lemma ScanStart(ps: seq<int>, g: Geometry)
    requires |ps| > 0
    ensures var t0 := Scan(ps[..|ps| - 1], g); var last := ps[|ps| - 1];
      Scan(ps, g).start == (if last == 0 || t0.start != 0 then t0.start else last)
  {
  }

  /** How one more block moves `end`. */
  lemma ScanEnd(ps: seq<int>, g: Geometry)
    requires |ps| > 0
    ensures var last := ps[|ps| - 1];
      Scan(ps, g).end == (if last == 0 then Scan(ps[..|ps| - 1], g).end else last)
  {
  }

  /** `start` is the position of the first allocated block and is 0 exactly
      when every block is a hole. */
  lemma {:induction false} StartIsFirstData(ps: seq<int>, g: Geometry)
    ensures FirstData(ps, Scan(ps, g).start)
  {
    if |ps| > 0 {
      var init := ps[..|ps| - 1];
      var last := ps[|ps| - 1];
      StartIsFirstData(init, g);
      var s0 := Scan(init, g).start;
      var s := Scan(ps, g).start;
      assert s == (if last == 0 || s0 != 0 then s0 else last) by {
        ScanStart(ps, g);
      }
      assert forall j :: 0 <= j < |init| ==> init[j] == ps[j];
      if s0 != 0 {
        var i :| 0 <= i < |init| && init[i] == s0 &&
          forall j :: 0 <= j < i ==> init[j] == 0;
        assert ps[i] == s;
      } else if last != 0 {
        assert ps[|ps| - 1] == s;
      }
    }
  }

  /** `end` is the position of the last allocated block and is 0 exactly
      when every block is a hole. */
  lemma {:induction false} EndIsLastData(ps: seq<int>, g: Geometry)
    ensures LastData(ps, Scan(ps, g).end)
  {
    if |ps| > 0 {
      EndIsLastData(ps[..|ps| - 1], g);
      ScanEnd(ps, g);
      LastDataStep(ps, Scan(ps[..|ps| - 1], g).end, Scan(ps, g).end);
    }
  }

  /** The first nonzero position of `ps`, 0 when there is none. */
  function FirstDataOf(ps: seq<int>): int
    decreases |ps|
  {
    if |ps| == 0 then 0
    else if ps[0] != 0 then ps[0]
    else FirstDataOf(ps[1..])
  }

  /** The last nonzero position of `ps`, 0 when there is none. */
  function LastDataOf(ps: seq<int>): int
    decreases |ps|
  {
    if |ps| == 0 then 0
    else if ps[|ps| - 1] != 0 then ps[|ps| - 1]
    else LastDataOf(ps[..|ps| - 1])
  }

  lemma {:induction false} FirstDataOfIsFirstData(ps: seq<int>)
    ensures FirstData(ps, FirstDataOf(ps))
    decreases |ps|
  {
    if |ps| > 0 && ps[0] == 0 {
      var t := ps[1..];
      FirstDataOfIsFirstData(t);
      var s := FirstDataOf(t);
      assert (forall i :: 0 <= i < |ps| ==> ps[i] == 0) <==>
             (forall i :: 0 <= i < |t| ==> t[i] == 0) by {
        forall i | 0 < i < |ps|
          ensures ps[i] == t[i - 1]
        {
        }
      }
      if s != 0 {
        var i :| 0 <= i < |t| && t[i] == s && forall j :: 0 <= j < i ==> t[j] == 0;
        assert ps[i + 1] == s;
        forall j | 0 <= j < i + 1
          ensures ps[j] == 0
        {
          if j > 0 {
            assert ps[j] == t[j - 1];
          }
        }
      }
    }
  }

  /** Only one value is the first nonzero position. */
  lemma FirstDataUnique(ps: seq<int>, a: int, b: int)
    requires FirstData(ps, a) && FirstData(ps, b)
    ensures a == b
  {
    if a != 0 && b != 0 {
      var i :| 0 <= i < |ps| && ps[i] == a && forall j :: 0 <= j < i ==> ps[j] == 0;
      var k :| 0 <= k < |ps| && ps[k] == b && forall j :: 0 <= j < k ==> ps[j] == 0;
      assert !(i < k) && !(k < i);
    }
  }

  lemma {:induction false} LastDataOfIsLastData(ps: seq<int>)
    ensures LastData(ps, LastDataOf(ps))
    decreases |ps|
  {
    if |ps| > 0 {
      LastDataOfIsLastData(ps[..|ps| - 1]);
      LastDataStep(ps, LastDataOf(ps[..|ps| - 1]), LastDataOf(ps));
    }
  }

  /** Only one value is the last nonzero position. */
  lemma LastDataUnique(ps: seq<int>, a: int, b: int)
    requires LastData(ps, a) && LastData(ps, b)
    ensures a == b
  {
    if a != 0 && b != 0 {
      var i :| 0 <= i < |ps| && ps[i] == a && forall j :: i < j < |ps| ==> ps[j] == 0;
      var k :| 0 <= k < |ps| && ps[k] == b && forall j :: k < j < |ps| ==> ps[j] == 0;
      assert !(i < k) && !(k < i);
    }
  }

  /** The walk's `start` and `end` are the first and last nonzero
      positions. */
  lemma StartAndEndAreData(ps: seq<int>, g: Geometry)
    ensures Scan(ps, g).start == FirstDataOf(ps) && Scan(ps, g).end == LastDataOf(ps)
  {
    StartIsFirstData(ps, g);
    FirstDataOfIsFirstData(ps);
    FirstDataUnique(ps, Scan(ps, g).start, FirstDataOf(ps));
    EndIsLastData(ps, g);
    LastDataOfIsLastData(ps);
    LastDataUnique(ps, Scan(ps, g).end, LastDataOf(ps));
  }

  /** `s` is the first nonzero position of `ps`, or 0 when there is none. */
  predicate FirstData(ps: seq<int>, s: int) {
    && (s == 0 <==> forall i :: 0 <= i < |ps| ==> ps[i] == 0)
    && (s != 0 ==> exists i :: 0 <= i < |ps| && ps[i] == s &&
                     forall j :: 0 <= j < i ==> ps[j] == 0)
  }

  /** `e` is the last nonzero position of `ps`, or 0 when there is none. */
  predicate LastData(ps: seq<int>, e: int) {
    && (e == 0 <==> forall i :: 0 <= i < |ps| ==> ps[i] == 0)
    && (e != 0 ==> exists i :: 0 <= i < |ps| && ps[i] == e &&
                     forall j :: i < j < |ps| ==> ps[j] == 0)
  }

  /** The last nonzero position after one more position. */
  lemma LastDataStep(ps: seq<int>, e0: int, e: int)
    requires |ps| > 0 && LastData(ps[..|ps| - 1], e0)
    requires e == (if ps[|ps| - 1] == 0 then e0 else ps[|ps| - 1])
    ensures LastData(ps, e)
  {
    var n := |ps| - 1;
    var init := ps[..n];
    if ps[n] != 0 {
      assert ps[n] == e && !(forall i :: 0 <= i < |ps| ==> ps[i] == 0);
    } else {
      assert (forall i :: 0 <= i < |ps| ==> ps[i] == 0) <==>
                      (forall i :: 0 <= i < n ==> init[i] == 0) by {
        forall i | 0 <= i < n
          ensures init[i] == ps[i]
        {
        }
      }
      if e0 != 0 {
        var i :| 0 <= i < n && init[i] == e0 &&
          forall j :: i < j < n ==> init[j] == 0;
        forall j | i < j < |ps|
          ensures ps[j] == 0
        {
          if j < n {
            assert init[j] == ps[j];
          }
        }
        assert ps[i] == e;
      }
    }
  }

  // ---------------------------------------------------------------------
  // get_testimony.

  /** The size in whole physical blocks, rounded up. */
  function Blocks(size: int, physbsize: int): (blocks: int)
    requires size >= 0 && physbsize > 0
    ensures blocks >= 0
    ensures blocks * physbsize >= size
    ensures (blocks - 1) * physbsize < size
  {
    var q := (size + physbsize - 1) / physbsize;
    MulSucc(physbsize, q - 1);
    assert q * physbsize == physbsize * q;
    q
  }

  /** The number of blocks the loop asks FIBMAP about: it stops at INT_MAX. */
  function Queried(blocks: int): int {
    if blocks <= INT_MAX then blocks else INT_MAX
  }

  /** FIBMAP's answers for the first `n` blocks. */
  function Answers(fibmap: nat -> Fibmap, n: nat): seq<Fibmap> {
    seq(n, i requires 0 <= i < n => fibmap(i))
  }

  /** FIBMAP fails for one of the first `n` blocks. */
  predicate SomeQueryFails(fibmap: nat -> Fibmap, n: int) {
    exists i: nat :: i < n && fibmap(i).MapFailed?
  }

  /** The byte positions behind a run of successful answers. */
  function Positions(answers: seq<Fibmap>, physbsize: int): (ps: seq<int>)
    requires forall i :: 0 <= i < |answers| ==> answers[i].Mapped?
    ensures |ps| == |answers|
    ensures forall i :: 0 <= i < |ps| ==> ps[i] >= 0
  {
    seq(|answers|, i requires 0 <= i < |answers| => PhysPos(answers[i].block, physbsize))
  }

  /** The fragment log as attached to the accused: only when logging and
      the last fragment size is nonzero, each list closed by -1, the last
      fragment's size filled in. */
  function CloseLog(t: Tally, logging: bool): Option<FragLog> {
    if logging && t.fragsize != 0 then
      Some(FragLog(t.poslog + [-1],
                   (if |t.poslog| > 0 then t.sizelog + [t.fragsize] else t.sizelog) + [-1]))
    else None
  }

  /** The report of a walk over the positions `ps` of `blocks` blocks. */
  function Summarize(blocks: int, ps: seq<int>, g: Geometry): (r: Report)
    requires forall i :: 0 <= i < |ps| ==> ps[i] >= 0
    ensures r.blocks == blocks
    ensures r.fragc <= |ps|
    ensures r.crumbc <= r.fragc
    ensures r.start == 0 <==> r.end == 0
    ensures r.start >= 0 && r.end >= 0
    ensures !g.logging ==> r.log.None?
    ensures r.log.Some? ==>
      && |r.log.value.pos| == r.fragc + 1 == |r.log.value.sizes|
      && r.log.value.pos[r.fragc] == -1 && r.log.value.sizes[r.fragc] == -1
      && forall j :: 0 <= j < r.fragc ==> r.log.value.pos[j] > 0
    ensures r.fragc == |Breaks(ps)|
    ensures g.physbsize > 0 ==> r.crumbc == Crumbs(ps, g.physbsize, g.crumbsize)
    ensures r.start == FirstDataOf(ps) && r.end == LastDataOf(ps)
    ensures r.log.Some? ==> r.log.value.pos == Breaks(ps) + [-1]
  {
    var t := Scan(ps, g);
    FragmentsAreBreaks(ps, g);
    CrumbsAtMostFragments(ps, g);
    StartIsFirstData(ps, g);
    EndIsLastData(ps, g);
    StartAndEndAreData(ps, g);
    BreaksArePositive(ps);
    BreaksAtMostBlocks(ps);
    Report(blocks, t.fragc, t.crumbc, t.start, t.end, CloseLog(t, g.logging))
  }

  /** `crumbsize = a->size * l->crumbratio`: the product truncated into an
      `int`. C leaves the conversion of a product beyond the range of `int`
      undefined; on x86-64 it gives INT_MIN. */
  function CrumbSize(size: int, crumbratio: real): (c: int)
    ensures INT_MIN <= c <= INT_MAX
  {
    var t := TruncReal(size as real * crumbratio);
    if INT_MIN <= t <= INT_MAX then t else INT_MIN
  }

  /** The threshold the block loop compares fragment sizes with, as an
      `uint`: the truncated product while it fits an `int`, and never more
      than 2^31 bytes, however large the file or the ratio. */
  lemma CrumbThreshold(size: int, crumbratio: real)
    requires size >= 0 && crumbratio >= 0.0
    ensures ToUInt32(CrumbSize(size, crumbratio)) <= 0x8000_0000
    ensures size as real * crumbratio < (INT_MAX + 1) as real ==>
      ToUInt32(CrumbSize(size, crumbratio)) as real <= size as real * crumbratio
        < ToUInt32(CrumbSize(size, crumbratio)) as real + 1.0
    ensures size as real * crumbratio >= (INT_MAX + 1) as real ==>
      ToUInt32(CrumbSize(size, crumbratio)) == 0x8000_0000
  {
  }

  /** A 10 GB file with a ratio of one half: the product, 5e9, does not fit
      an `int`, and the threshold becomes 2^31 bytes. */
  lemma TenGigabytesAtHalf()
    ensures ToUInt32(CrumbSize(10_000_000_000, 0.5)) == 0x8000_0000
  {
    CrumbThreshold(10_000_000_000, 0.5);
  }

  /** The byte positions FIBMAP gives for the first `n` blocks, when it
      answers for all of them. */
  function Walked(fibmap: nat -> Fibmap, n: int, physbsize: int): (ps: seq<int>)
    requires !SomeQueryFails(fibmap, n)
    ensures |ps| == if n < 0 then 0 else n
    ensures forall i :: 0 <= i < |ps| ==> ps[i] == PhysPos(fibmap(i).block, physbsize)
  {
    var n' := if n < 0 then 0 else n;
    Positions(Answers(fibmap, n'), physbsize)
  }

  /** `get_testimony`: `bsz` is FIGETBSZ's answer (None when the ioctl
      fails), `fibmap` FIBMAP's answer for each logical block. None stands
      for the -1 return. */
  function GetTestimony(size: int, crumbratio: real, verbosity: int,
                        bsz: Option<int>, fibmap: nat -> Fibmap): (r: Option<Report>)
    requires size >= 0
    requires bsz.Some? ==> bsz.value > 0
    ensures bsz.None? ==> r.None?
    ensures bsz.Some? ==>
      (r.None? <==> SomeQueryFails(fibmap, Queried(Blocks(size, bsz.value))))
    ensures r.Some? ==>
      && r.value.blocks * bsz.value >= size
      && (r.value.blocks - 1) * bsz.value < size
      && r.value.fragc <= Queried(r.value.blocks)
      && r.value.crumbc <= r.value.fragc
      && (r.value.start == 0 <==> r.value.end == 0)
    ensures r.Some? && verbosity < 3 ==> r.value.log.None?
    ensures r.Some? && r.value.log.Some? ==>
      && |r.value.log.value.pos| == r.value.fragc + 1 == |r.value.log.value.sizes|
      && r.value.log.value.pos[r.value.fragc] == -1
      && r.value.log.value.sizes[r.value.fragc] == -1
    ensures r.Some? ==> r.value.blocks == Blocks(size, bsz.value)
    ensures r.Some? ==>
      var ps := Walked(fibmap, Queried(r.value.blocks), bsz.value);
      && r.value.fragc == |Breaks(ps)|
      && r.value.crumbc == Crumbs(ps, bsz.value, CrumbSize(size, crumbratio))
      && r.value.start == FirstDataOf(ps) && r.value.end == LastDataOf(ps)
      && (r.value.log.Some? ==> r.value.log.value.pos == Breaks(ps) + [-1])
  {
    match bsz
    case None => None
    case Some(physbsize) =>
      var blocks := Blocks(size, physbsize);
      if SomeQueryFails(fibmap, Queried(blocks)) then None
      else
        var g := Geometry(physbsize, CrumbSize(size, crumbratio), verbosity >= 3);
        Some(Summarize(blocks, Walked(fibmap, Queried(blocks), physbsize), g))
  }

  lemma {:induction false} BreaksArePositive(ps: seq<int>)
    requires forall i :: 0 <= i < |ps| ==> ps[i] >= 0
    ensures forall j :: 0 <= j < |Breaks(ps)| ==> Breaks(ps)[j] > 0
  {
    if |ps| > 0 {
      BreaksArePositive(ps[..|ps| - 1]);
    }
  }

  lemma {:induction false} BreaksAtMostBlocks(ps: seq<int>)
    ensures |Breaks(ps)| <= |ps|
  {
    if |ps| > 0 {
      BreaksAtMostBlocks(ps[..|ps| - 1]);
    }
  }
}

=== FILE: window.dfy ===
/** `judge_list` (judge.c): the walk over a listing that keeps a window of
    three investigated entries, x before y before z, computes y's ideal
    offset from its neighbours and judges y. Entries whose investigation
    fails are skipped, so the neighbours are the nearest entries that were
    investigated successfully. */
module Window {
  import opened CTypes
  import opened Records
  import opened Judgment

  /** The entries of a listing that were investigated successfully, in
      listing order. `cases[i]` is the outcome of `investigate` on the i-th
      name. */
  function Present(cases: seq<Option<Accused>>): seq<Accused>
    decreases |cases|
  {
    if |cases| == 0 then []
    else
      var last := cases[|cases| - 1];
      Present(cases[..|cases| - 1]) + (if last.Some? then [last.value] else [])
  }

  /** Entry `j` of `ys` with the ideal offset its neighbours in `ys` give. */
  function Placed(ys: seq<Accused>, j: int): Accused
    requires 0 <= j < |ys|
  {
    Place(if j > 0 then Some(ys[j - 1]) else None, ys[j],
          if j + 1 < |ys| then Some(ys[j + 1]) else None)
  }

  /** The last entry judged made `judge` return -1. */
  predicate Stopped(judged: seq<Accused>, judge: Accused -> int) {
    |judged| > 0 && judge(judged[|judged| - 1]) == -1
  }

  /** Every entry of `ys` with the ideal offset its neighbours give. */
  function Placements(ys: seq<Accused>): (ps: seq<Accused>)
    ensures |ps| == |ys|
    ensures forall j :: 0 <= j < |ys| ==> ps[j] == Placed(ys, j)
  {
    seq(|ys|, j requires 0 <= j < |ys| => Placed(ys, j))
  }

  /** Reference definition: the first `k` entries of `ps` judged in order,
      the walk ending after the first one `judge` fails on. */
  function Trial(ps: seq<Accused>, judge: Accused -> int, k: nat): seq<Accused>
    requires k <= |ps|
  {
    if k == 0 then []
    else
      var prev := Trial(ps, judge, k - 1);
      if Stopped(prev, judge) then prev else prev + [ps[k - 1]]
  }

  /** The last and the second-to-last element of a sequence, if any. */
  function Last(s: seq<Accused>): Option<Accused> {
    if |s| == 0 then None else Some(s[|s| - 1])
  }

  function SecondLast(s: seq<Accused>): Option<Accused> {
    if |s| < 2 then None else Some(s[|s| - 2])
  }

  /** How many entries the walk has judged when it reaches name `n`: all
      the successful entries so far once the next one is known, one fewer
      while the neighbour after the last one is still unknown. */
  function Ready(cases: seq<Option<Accused>>, n: nat): nat
    requires n <= |cases|
  {
    var p := |Present(cases[..n])|;
    if n == |cases| || cases[n].Some? || p == 0 then p else p - 1
  }

  /** What the walk holds when it reaches name `n`: `z` is that name's
      outcome, `y` and `x` the last two entries investigated successfully
      before it, and `judged` the reference walk so far, not stopped. */
  predicate Holds(cases: seq<Option<Accused>>, judge: Accused -> int, n: nat,
                  x: Option<Accused>, y: Option<Accused>, z: Option<Accused>,
                  judged: seq<Accused>)
  {
    && n <= |cases|
    && (n < |cases| ==> z == cases[n])
    && y == Last(Present(cases[..n]))
    && x == SecondLast(Present(cases[..n]))
    && Ready(cases, n) <= |Present(cases)|
    && judged == Trial(Placements(Present(cases)), judge, Ready(cases, n))
    && !Stopped(judged, judge)
  }

  /** `judge_list`. `cases` are the outcomes of `investigate` on the names of
      the listing, `judge` the result `judge` returns for an entry. `judged`
      are the entries passed to `judge`, with the ideal offset they were
      given. */
  method JudgeList(cases: seq<Option<Accused>>, judge: Accused -> int)
    returns (res: int, judged: seq<Accused>)
    ensures judged == Trial(Placements(Present(cases)), judge, |Present(cases)|)
    ensures res == -1 <==> Stopped(judged, judge)
    ensures res == 0 || res == -1
  {
    res := 0;
    judged := [];
    if |cases| == 0 {
      return;
    }
    var x: Option<Accused> := None;
    var y: Option<Accused> := None;
    var z := cases[0];
    var n := 0;
    assert cases[..0] == [];
    while n < |cases|
      invariant Holds(cases, judge, n, x, y, z, judged)
      invariant res == 0
    {
      var stop;
      x, y, z, judged, stop := Step(cases, judge, n, x, y, z, judged);
      if stop {
        res := -1;
        return;
      }
      n := n + 1;
    }
    assert cases[..|cases|] == cases;
  }

  /** One turn of the loop of `judge_list`: slide the window past name `n`
      and judge y once its successor is known. `stop` says `judge`
      returned -1, and then the walk is complete. */
  method Step(cases: seq<Option<Accused>>, judge: Accused -> int, n: nat,
              x: Option<Accused>, y: Option<Accused>, z: Option<Accused>,
              judged: seq<Accused>)
    returns (x': Option<Accused>, y': Option<Accused>, z': Option<Accused>,
             judged': seq<Accused>, stop: bool)
    requires n < |cases| && Holds(cases, judge, n, x, y, z, judged)
    ensures !stop ==> Holds(cases, judge, n + 1, x', y', z', judged')
    ensures stop ==> Stopped(judged', judge)
    ensures stop ==> judged' == Trial(Placements(Present(cases)), judge, |Present(cases)|)
  {
    ghost var ys := Present(cases);
    ghost var p1 := Present(cases[..n + 1]);
    ReadyAround(cases, n);
    PresentSnoc(cases, n);
    x', y' := x, y;
    if z.Some? {
      x', y' := y, z;
    }
    var judgeNow := false;
    if n + 1 < |cases| {
      z' := cases[n + 1];
      judgeNow := z'.Some? && y'.Some?;
    } else {
      z' := None;
      judgeNow := y'.Some?;
    }
    judged', stop := judged, false;
    if judgeNow {
      var placed := Place(x', y'.value, z');
      PlacedInWindow(cases, n, x', y', z');
      judged' := judged + [placed];
      if judge(placed) == -1 {
        stop := true;
        TrialStable(Placements(ys), judge, |p1|, |ys|);
      }
    }
  }

  /** The walk's count of judged entries before and after name `n`, in
      terms of the entries up to and including `n`. */
  lemma ReadyAround(cases: seq<Option<Accused>>, n: nat)
    requires n < |cases|
    ensures var p1 := |Present(cases[..n + 1])|;
      && Ready(cases, n) == (if p1 == 0 then 0 else p1 - 1)
      && Ready(cases, n + 1) ==
           (if n + 1 == |cases| || cases[n + 1].Some? || p1 == 0 then p1 else p1 - 1)
      && p1 <= |Present(cases)|
  {
    PresentSnoc(cases, n);
    PresentPrefix(cases, n + 1);
  }

  /** The window the loop holds when it judges: y is the last entry so far,
      x the one before it, z the next entry (or none at the end); the
      placement it computes is the reference one. */
  lemma PlacedInWindow(cases: seq<Option<Accused>>, n: nat,
                       x: Option<Accused>, y: Option<Accused>, z: Option<Accused>)
    requires n < |cases|
    requires y == Last(Present(cases[..n + 1])) && y.Some?
    requires x == SecondLast(Present(cases[..n + 1]))
    requires z == (if n + 1 < |cases| then cases[n + 1] else None)
    requires n + 1 < |cases| ==> z.Some?
    ensures 0 < |Present(cases[..n + 1])| <= |Present(cases)|
    ensures Place(x, y.value, z) == Placed(Present(cases), |Present(cases[..n + 1])| - 1)
  {
    var ys := Present(cases);
    var p1 := Present(cases[..n + 1]);
    PresentPrefix(cases, n + 1);
    var j := |p1| - 1;
    assert p1[j] == ys[j];
    assert j > 0 ==> p1[j - 1] == ys[j - 1];
    if n + 1 < |cases| {
      PresentSnoc(cases, n + 1);
      PresentPrefix(cases, n + 2);
      assert ys[j + 1] == z.value;
    } else {
      assert cases[..n + 1] == cases;
    }
  }

  /** One more name adds its entry, if investigated successfully. */
  lemma PresentSnoc(cases: seq<Option<Accused>>, n: nat)
    requires n < |cases|
    ensures Present(cases[..n + 1]) ==
      Present(cases[..n]) + (if cases[n].Some? then [cases[n].value] else [])
  {
    assert cases[..n + 1][..n] == cases[..n];
  }

  /** The entries of a prefix of the listing are a prefix of its entries. */
  lemma {:induction false} PresentPrefix(cases: seq<Option<Accused>>, m: nat)
    requires m <= |cases|
    ensures Present(cases[..m]) <= Present(cases)
    decreases |cases|
  {
    if m == |cases| {
      assert cases[..m] == cases;
    } else {
      var init := cases[..|cases| - 1];
      assert init[..m] == cases[..m];
      PresentPrefix(init, m);
    }
  }

  /** The judged entries count the judged steps, until the walk stops. */
  lemma {:induction false} TrialLength(ps: seq<Accused>, judge: Accused -> int, k: nat)
    requires k <= |ps|
    ensures |Trial(ps, judge, k)| <= k
    ensures !Stopped(Trial(ps, judge, k), judge) ==> |Trial(ps, judge, k)| == k
  {
    if k > 0 {
      TrialLength(ps, judge, k - 1);
    }
  }

  /** Once stopped, the walk judges nothing more. */
  lemma {:induction false} TrialStable(ps: seq<Accused>, judge: Accused -> int, k: nat, k': nat)
    requires k <= k' <= |ps|
    requires Stopped(Trial(ps, judge, k), judge)
    ensures Trial(ps, judge, k') == Trial(ps, judge, k)
    decreases k' - k
  {
    if k' > k {
      TrialStable(ps, judge, k, k' - 1);
    }
  }

  /** The judged entries are a prefix of the entries, and every one but
      possibly the last was judged without failure. */
  lemma {:induction false} TrialIsInOrder(ps: seq<Accused>, judge: Accused -> int, k: nat)
    requires k <= |ps|
    ensures Trial(ps, judge, k) <= ps[..k]
    ensures forall j :: 0 <= j < |Trial(ps, judge, k)| - 1 ==> judge(Trial(ps, judge, k)[j]) != -1
  {
    if k > 0 {
      var prev := Trial(ps, judge, k - 1);
      TrialIsInOrder(ps, judge, k - 1);
      assert ps[..k - 1] <= ps[..k];
      if !Stopped(prev, judge) {
        TrialLength(ps, judge, k - 1);
        assert ps[..k] == ps[..k - 1] + [ps[k - 1]];
      }
    }
  }

  /** A walk on which `judge` never fails judges every entry, exactly once,
      in order. */
  lemma {:induction false} TrialJudgesAll(ps: seq<Accused>, judge: Accused -> int, k: nat)
    requires k <= |ps|
    requires forall j :: 0 <= j < |ps| ==> judge(ps[j]) != -1
    ensures Trial(ps, judge, k) == ps[..k]
  {
    if k > 0 {
      TrialJudgesAll(ps, judge, k - 1);
      assert ps[..k] == ps[..k - 1] + [ps[k - 1]];
    }
  }

  /** Hence every entry of the listing investigated successfully is placed
      between its nearest successful neighbours and judged, in listing
      order, while `judge` does not fail. */
  lemma JudgeListJudgesAll(cases: seq<Option<Accused>>, judge: Accused -> int)
    requires forall j :: 0 <= j < |Present(cases)| ==> judge(Placed(Present(cases), j)) != -1
    ensures var ys := Present(cases);
      Trial(Placements(ys), judge, |ys|) == Placements(ys)
  {
    var ps := Placements(Present(cases));
    TrialJudgesAll(ps, judge, |ps|);
    assert ps[..|ps|] == ps;
  }
}
